=== FILE: README.md ===
# Smart Scanner intake queue — a Dafny model

Smart Scanner watches a source folder for scanned documents. It queues
each PDF, has a language model classify it, and files it under a folder
named after its category. This project models the sequential core of that
pipeline and proves properties of it:

- **the intake list** (`Intake`): a Python list shared by three parties.
  The start-up scan appends admissible files at the back and skips paths
  already queued. The watch handler inserts accepted create/move events
  at the front and does no membership check. The consumer pops from the
  back. This makes the list a FIFO for watch events but not for the scan:
  files already in the folder are processed in *reverse* listing order,
  and always before any event (`Intake.DriveOrder`).
- **the consumer loop** (`Consumer`): one iteration of `move_files` is a
  step on `(queue, queueWasEmpty, monitoring, log, panel)`. The step
  renders the queue panel, debounces the "queue is empty" line, drops
  paths that no longer exist, and runs the document pipeline. The
  external steps are inputs that either return a value or fail. Any
  failure logs one "Error processing" line and switches monitoring off.
  The Run/Stop toggle and the start-up scan are modelled too.
- **the classification post-processing** (`Analysis`): what
  `analyzeDocument` does to the model's answers. Funding is cleared
  unless the category is CRE; metadata exists only for CRE; "null"
  strings become absent.
- **the string helpers** (`Paths`, `Config`): the Windows flavour of
  `os.path.splitext`/`basename`, the two `is_valid_file` allow-lists,
  the queue panel's `.pdf` pattern, `getFilename`, and the configuration
  dictionaries.
- **the prototype window** (`Prototype`, `gui.py`): the same list
  discipline with no filter and no duplicate check. Its consumer keeps
  monitoring after a failed move.

The log is a `seq<string>` of the terminal lines without their time stamp.
The queue panel is the `seq<string>` of lines emitted since the last clear.

Properties of the code as written worth stating, each proved by the member
named with it:

- `gui.py:13` calls the shared list a "LIFO stack", `gui.py:25` says an
  event is "added to bottom of stack", and `mainWindow.py:233` pops the
  "top of the stack". Events therefore come out first in, first out, while
  scanned files come out last-listed first
  (`Intake.ListedPairComesOutReversed`), and a listed file always comes out
  before any event (`Intake.DriveOrder`).
- The scan skips paths already queued, but watch events are never
  de-duplicated (`Intake.EventDoesNotDeduplicate`).
- The classification prompt (`scripts/aiFunctions.py:51`) asks for INT or
  EXT funding for CRE and null otherwise; the code (`scripts/aiFunctions.py:70`)
  stores funding only with a CRE classification, but not every CRE
  classification keeps it: funding that is the string "null" or JSON null
  is dropped (`Analysis.AnalyzeDocument`).
- On any failure `mainWindow.py` stops monitoring, while `gui.py` only
  prints and carries on (`Prototype.ErrorPolicyDiffers`).

## Model

| member | source | states |
|---|---|---|
| Paths.SplitExt | mainWindow.py:124 | `splitext` splits the path into root + extension; the extension is empty or a dot followed by non-dot, non-separator characters taken from the last component; it is non-empty exactly when that component has a non-dot character before its last dot |
| Paths.Basename | scripts/fileFunctions.py:22 | the basename is a separator-free suffix of the path, preceded by a separator unless it is the whole path |
| Paths.StemOfBasename | scripts/fileFunctions.py:22 | the stem is the basename with its extension removed and contains no separator |
| Paths.IsValidPdfIff | mainWindow.py:123-125 | the main window accepts a path iff it ends in `.pdf` ignoring case and its last component has a non-dot character before that ending |
| Paths.IsValidDocumentIff | eventHandler.py:12-18 | the watch handler accepts a path iff it ends in `.pdf` or `.img` ignoring case, with a non-dot character before the ending in its last component |
| Paths.LowerExtIff | eventHandler.py:16-18 | for any lower-case extension `e`, "lower-cased extension equals `e`" is the same as "path ends in `e` ignoring case, with a real name in front" |
| Paths.ValidPdfIsValidDocument | eventHandler.py:12 | every path the scan filter accepts is accepted by the watch handler |
| Paths.PdfName | mainWindow.py:225-227 | the panel pattern yields a separator-free name ending in `.pdf` (case-sensitive), which is the whole last component or that component minus one final newline; a last component with at least one character before `.pdf` always matches |
| Paths.GetFilename | scripts/fileFunctions.py:21-29 | indices 0, 1, 2 give a name and every other index gives `None`; 0 gives the separator-free stem, 1 and 2 give the basename with its extension replaced by `.json` / `.md` |
| Paths.JoinBasename | gui.py:116-117 | joining a basename onto the destination folder gives a path with that basename |
| Paths.TrimSeps | mainWindow.py:279 | dropping trailing separators leaves a prefix that is empty or ends in a non-separator, and everything dropped is a separator |
| Paths.Dirname | mainWindow.py:279 | `dirname` is a prefix of the path that ends no later than its last separator; only separators lie between its end and the last component; it ends in a non-separator unless it is empty or all separators; when everything up to the last separator is separators (`/c`, `//c`), the result is that whole head, never empty |
| Paths.DirnameJoin | mainWindow.py:265 | the directory of a name joined onto a directory that does not end in a separator is that directory |
| Text.TrimStart | scripts/aiFunctions.py:112 | `lstrip` removes exactly the leading white space: the result is a suffix whose first character is not white space, and everything dropped is white space |
| Text.TrimEnd | scripts/aiFunctions.py:112 | `rstrip` removes exactly the trailing white space |
| Text.Strip | scripts/aiFunctions.py:112 | `strip` gives a text no longer than its input that is empty or starts and ends with a non-space character |
| Text.StripIsSlice | scripts/aiFunctions.py:112 | the stripped text is a slice of the input with nothing but white space before and after it |
| Text.StripIdempotent | scripts/aiFunctions.py:112 | stripping twice equals stripping once |
| Text.StripEmptyIff | scripts/aiFunctions.py:112 | the stripped text is empty iff the input is all white space |
| Text.Lower | scripts/aiFunctions.py:112 | `lower` keeps the length |
| Text.LowerSpec | eventHandler.py:18 | `lower` moves each capital 32 code points down to its small letter, keeps every other character, and leaves no capital |
| Text.LowerOfLowerCase | scripts/aiFunctions.py:112 | a text without capitals is its own lower-case form |
| Text.Upper | scripts/aiFunctions.py:75 | `upper` keeps the length |
| Text.UpperSpec | scripts/aiFunctions.py:70 | `upper` moves each small letter 32 code points up to its capital, keeps every other character, and leaves no small letter |
| Seqs.Reverse | mainWindow.py:224 | `reversed(file_stack)` has the same length, and element `i` is element `n-1-i` of the list |
| Analysis.NormalizeFunding | scripts/aiFunctions.py:70-71 | funding is cleared for every non-CRE type and for the exact string "null"; other CRE funding is kept; the type string and every other field are unchanged |
| Analysis.NormalizeField | scripts/aiFunctions.py:111-113 | a string field becomes `None` iff its stripped, lower-cased text is "null"; otherwise it is kept unchanged |
| Analysis.NormalizeMetadata | scripts/aiFunctions.py:111-113 | after the pass no string field holds a "null" text, each kept field is unchanged, and the author and keyword lists are untouched; already-clean metadata is a fixed point |
| Analysis.NormalizeMetadataIdempotent | scripts/aiFunctions.py:111-113 | running the null-normalisation twice equals running it once |
| Analysis.AnalyzeDocument | scripts/aiFunctions.py:68-115 | a failing first call fails the analysis; the metadata call can fail it only for CRE; every result has funding only when CRE, has metadata iff CRE, and has normalised metadata |
| Analysis.NonCreFundingDropped | scripts/aiFunctions.py:70-71 | a FIN classification that came back with funding "INT" is stored with no funding and no metadata |
| Analysis.LowerCaseCreKeepsSpelling | scripts/aiFunctions.py:70-75 | a type of "cre" counts as CRE (funding kept, metadata present) but is stored as "cre" |
| Analysis.FundingNullIsCaseSensitive | scripts/aiFunctions.py:70 | CRE funding "null" is cleared while "NULL" is kept |
| Analysis.PaddedNullCleared | scripts/aiFunctions.py:112 | a metadata text " Null" with a trailing newline counts as null |
| Analysis.InnerSpaceKept | scripts/aiFunctions.py:112 | "nul l" does not count as null |
| Config.ForwardSlashes | scripts/fileFunctions.py:63-64 | the rewritten path has the same length, no backslash, a slash where each backslash was, and every other character kept |
| Config.ForwardSlashesIdempotent | scripts/fileFunctions.py:63-64 | rewriting the slashes twice equals rewriting them once |
| Config.SaveConfig | scripts/fileFunctions.py:61-65 | the saved dictionary has exactly the two path keys; each value is its path with every backslash turned into a slash and every other character kept in place, so neither contains a backslash and backslash-free paths are stored as given |
| Config.SaveConfigFixedPoint | scripts/fileFunctions.py:61-65 | saving the two paths of a saved configuration writes the same configuration |
| Config.SaveSource | scripts/fileFunctions.py:69-73 | the source key holds the new path verbatim; every other key is kept with its value and no key is lost |
| Config.SaveDestination | scripts/fileFunctions.py:75-79 | the destination key holds the new path verbatim; every other key is kept with its value and no key is lost |
| Config.SaversCommute | scripts/fileFunctions.py:69-79 | saving a source path and a destination path gives the same configuration in either order |
| Config.FallbackAsWritten | scripts/fileFunctions.py:59 | the dictionary returned after a decoding error has the keys "source" and "destination" |
| Config.FallbackAsWrittenLosesPaths | scripts/fileFunctions.py:55-59 | with that fallback neither path key is found, and a `saveSource` whose own load meets the undecodable file writes a file without a destination path |
| Config.Fallback | scripts/fileFunctions.py:58-59 | the intended fallback, the just-saved defaults, has exactly the two path keys |
| Config.FallbackKeepsPaths | scripts/fileFunctions.py:58-59 | with the intended fallback both paths are found, and saving one keeps the other |
| Intake.Scan | mainWindow.py:181-191 | whatever the list held, the scan keeps it as a prefix and appends only paths it did not hold, none twice, with one "Initial file detected: <i>stem</i>. Added to queue." line per appended path, in the order they were appended; afterwards the list holds exactly the old entries plus every listed regular `.pdf` file; a duplicate-free list stays duplicate-free |
| Intake.ScanOneKeepsDistinct | mainWindow.py:184-189 | one scan iteration only appends, appends only a path the list does not hold, adds the entry's path exactly when it is admissible and not yet queued, logs the "Initial file detected" line for the path it adds and nothing otherwise, and never creates a duplicate |
| Intake.ScanAppendsNew | mainWindow.py:181-187 | the scan is "append each admissible listed path in listing order, skipping each one the list already holds at that moment" |
| Seqs.AppendNewIsWithout | mainWindow.py:185-186 | over values that are pairwise distinct, appending them one by one with the membership check equals appending at once, in order, those the list did not hold |
| Intake.ScanAppendsAdmitted | mainWindow.py:181-187 | when the admissible listed paths are distinct, as the names of one directory are, the scan appends exactly those the list does not hold yet, in listing order |
| Intake.HandleEvent | eventHandler.py:20-38 | an accepted event (not a directory; `src_path` on creation, `dest_path` on a move, passing the allow-list) puts its path at the front with one "New file detected" line; any other event changes nothing |
| Intake.EventDoesNotDeduplicate | eventHandler.py:20-23 | an accepted event always lengthens the list by one and raises the path's occurrence count by one |
| Intake.Pop | mainWindow.py:233 | the pop returns the last entry and leaves the prefix before it |
| Intake.PopAfterAppend | mainWindow.py:186 | a path just appended at the back is the next one popped |
| Intake.DriveOrder | eventHandler.py:23 | over any interleaving of events and pops, the paths taken, followed by the remaining list read from the back, are the starting list read from the back and then the accepted events in arrival order |
| Intake.TakenInOrder | mainWindow.py:233 | the taken paths are a prefix of "starting list, last entry first, then the events in arrival order" |
| Intake.ScanThenDrive | mainWindow.py:181-187 | starting from an empty list, scanned files are processed in reverse listing order, before any event |
| Intake.ListedPairComesOutReversed | mainWindow.py:186 | with `a.pdf` listed before `b.pdf`, the consumer takes `b.pdf` first |
| Consumer.RenderFromSplits | mainWindow.py:223-232 | the panel loop equals "pick the `.pdf`-matching names, then number them from the counter's start" |
| Consumer.NumberedLines | mainWindow.py:228-232 | numbering gives one line per name, the `k`-th with the label for counter value `count + k` |
| Consumer.RenderLines | mainWindow.py:223-232 | the panel has one line per pattern-matching entry, in reversed list order; line 0 is `>> name`; line `k` is `[k] name`, counting only matching entries |
| Consumer.UpperCasePdfQueuedButNotShown | mainWindow.py:225 | `Report.PDF` passes `is_valid_file` but matches no panel line, so it is queued yet never shown |
| Consumer.RunPipeline | mainWindow.py:237-281 | a document finishes iff every external step succeeds (the metadata call only counting for CRE); the first line is "Processing" with the stem it is given; a finished run ends with "is finished processing"; an aborted run carries the first failure's reason |
| Consumer.Filing | mainWindow.py:264-281 | the filing stage finishes iff the JSON write, the renaming and both moves succeed, ending with "is finished processing"; otherwise its reason is that of the first failing step in that order |
| Consumer.Step | mainWindow.py:215-293 | a stopped loop changes nothing; the log only grows; an empty list logs the empty line only when the flag was clear and then sets it; a non-empty list loses its last entry and clears the flag; a missing path is dropped silently; an existing path clears the panel, its first new line is "Processing" with the file's stem, it keeps monitoring on iff every step succeeds, and otherwise the log ends with one error line naming the stem and the first failure |
| Consumer.ProcessOpens | mainWindow.py:238-286 | processing an existing file clears the panel and logs "Processing" with its stem before anything else, whatever the steps' outcomes |
| Consumer.ProcessKeeps | mainWindow.py:237-287 | processing an existing file only appends to the log and leaves the list and its flag alone; monitoring stays on exactly when every step succeeds |
| Consumer.ProcessEnds | mainWindow.py:279-287 | the log then ends with "is finished processing" when every step succeeds, and otherwise with the error line naming the stem and the first failing step's reason, monitoring being off |
| Consumer.StepAsWritten | mainWindow.py:264-266 | as written, an iteration is the corrected iteration with the JSON write failing with the `TypeError` message, so any existing file taken switches monitoring off |
| Consumer.AsWrittenStopsOnFirstFile | mainWindow.py:266 | as written, the first existing file taken always ends with an error line and monitoring off, and later iterations change nothing |
| Consumer.CorrectedFinishesDocument | mainWindow.py:264-281 | with the JSON write corrected, a document whose steps all succeed keeps monitoring on, logs "is finished processing" last and clears the panel |
| Consumer.StoppedStaysStopped | mainWindow.py:299-302 | once monitoring is off, no later iteration changes the state |
| Consumer.EmptyPollsLogOnce | mainWindow.py:288-293 | any run of polls on an empty list logs the empty line once if the flag was clear and never if it was set, and leaves the flag set |
| Consumer.MissingFileSkipped | mainWindow.py:236 | a dequeued path that no longer exists leaves the list, logs nothing and keeps monitoring on |
| Consumer.Toggle | mainWindow.py:152-158 | the toggle flips `monitoring` and appends the starting or stopping line first; stopping keeps the list; starting only extends it and keeps it duplicate-free |
| Consumer.Start | mainWindow.py:175-191 | starting sets `monitoring` and clears `queue_was_empty`; the list becomes a fresh extension of itself holding exactly the old entries plus every listed regular `.pdf` file; earlier lines are kept and one "Initial file detected" line naming each added path's stem is appended, in the order the paths were added; the paths are appended in listing order, each admissible listed path that is not yet queued at its turn |
| Consumer.RestartKeepsQueue | mainWindow.py:175-189 | stopping and starting again keeps every queued entry in place |
| Prototype.Scan | gui.py:84-89 | the prototype scan appends every regular file of the listing, in order, with no filter and no duplicate check |
| Prototype.ScanKeepsDuplicates | gui.py:86-88 | a listed file that is already queued is queued a second time |
| Prototype.HandleEvent | gui.py:21-31 | a non-directory event puts `src_path` (creation) or `dest_path` (move) at the front; a directory event changes nothing |
| Prototype.HandlerAcceptsMore | gui.py:21-31 | on every event the main window's handler accepts, the prototype's handler does the same insertion |
| Prototype.Target | gui.py:116-117 | the move target has the same basename as the moved file and lies directly in the destination folder (its directory is that folder) |
| Intake.AnnouncedTrans | mainWindow.py:184-189 | the lines of two successive scan steps, concatenated, announce exactly the paths the two steps appended, in order |
| Prototype.Step | gui.py:110-124 | `monitoring` never changes; a non-empty list loses its last entry; an existing path records one move from it to the destination folder; a missing path records nothing |
| Prototype.RunKeepsMonitoring | gui.py:111-122 | over any run, failed moves included, monitoring keeps its value; recorded moves stay recorded, and there are no more new moves than paths taken |
| Prototype.StepCounts | gui.py:111-118 | one iteration keeps the recorded moves and records at most one new move, and only by taking a path |
| Prototype.RunMovesEveryPresentPath | gui.py:111-118 | while the list lasts, every poll that finds its path attempts exactly one move |
| Prototype.ErrorPolicyDiffers | gui.py:118-122 | a failure stops the main window's consumer but not the prototype's |

## Findings

| source | as written | input that shows it | evidently intended | confidence | as-written member | corrected member |
|---|---|---|---|---|---|---|
| mainWindow.py:266 | `writeToJSON(documentMetadata, json_path)` passes two arguments to a function that takes three (scripts/fileFunctions.py:37), so it raises `TypeError` | any existing file whose parsing and analysis succeed | write the JSON record and carry on to renaming and moving | medium, not executed: the `writeToJSON` in scripts/fileFunctions.py takes three parameters, but that file also lacks `renameFile`, `moveDocument`, `moveJSON` and `sanitizeFilename`, which mainWindow.py imports from it, so the copy read may not be the one the window runs with | Consumer.StepAsWritten, Consumer.AsWrittenStopsOnFirstFile | Consumer.Step, Consumer.CorrectedFinishesDocument |
| scripts/fileFunctions.py:59 | after a decoding error, `loadConfig` returns `{"source": ..., "destination": ...}`, but every reader and writer uses `source_path` / `destination_path` | a `config.json` holding invalid JSON | return the defaults it has just saved, under the keys `saveConfig` uses | high, not executed | Config.FallbackAsWritten, Config.FallbackAsWrittenLosesPaths | Config.Fallback, Config.FallbackKeepsPaths |

## Left out

- Threads, `threading.Lock`, the watchdog `Observer` lifecycle, `time.sleep` polling, and the unlocked `if file_stack:` test. These are concurrency. Interleavings are modelled as sequences of discrete steps (`Intake.Drive`, `Consumer.Run`). A consumer thread that outlives a stop and restart is not modelled.
- PySide6 widgets and signals. The terminal and the queue panel become sequences of lines. The time stamp and markup prefix that `append_to_terminal` adds are dropped, and `print` output is not modelled.
- Docling conversion and the two Ollama calls, including prompt text and pydantic validation. Their results are the `Outcome` inputs `parse`, `classify` and `extract`.
- `loadConfig` file reading and `saveConfig`/`saveSource`/`saveDestination` file writing, `writeToJSON` and `writeToMarkdown`. These are I/O; only the dictionaries are modelled.
- `renameFile`, `moveDocument`, `moveJSON` and `sanitizeFilename`. They are not part of this model. Their results are `Outcome` inputs, and the arguments passed to them are not modelled. That includes the JSON path and the `"Uncategorized"` folder default.
- `getSource`, `main.py` and `test.py`: interactive glue.
- `os.listdir` and `os.path.join` in the scan: the listing is given as already joined paths, each with its `isfile` answer. `os.path.exists` in both consumers is the `present` field of a poll.
- Consumer.Start: a scan that raises is not modelled. With no source folder chosen, `os.path.join(None, …)` raises, and a missing folder makes `os.listdir` raise. Either happens after `monitoring` is set and before the threads start (mainWindow.py:177-182). The model's listing always exists.
- Drive letters and UNC prefixes in `os.path`. `Paths.Join` covers only separator-free names. `Paths.Dirname` strips trailing separators the way `ntpath.split` does, except at a drive root.
- `str.lower`/`str.upper` are ASCII-only here. For the comparisons the program makes (".pdf", ".img", "null", "CRE") no other character lower- or upper-cases into these letters, so the result is the same.
- Consumer.Stages: the "document classified as" line upper-cases the type with the ASCII-only `Text.Upper`. Python's `str.upper` also maps other letters, and can change the length (`ß` becomes `SS`). For a type string with such letters the modelled line differs from the real one (mainWindow.py:263).
- Prototype.Files: states only that every regular file is included and that the result is no longer than the listing. That it holds nothing else, in listing order, follows from its definition and is not stated as a contract.

=== FILE: analysis.dfy ===
/** The record shapes returned by the document analysis and the
    post-processing `analyzeDocument` applies to the language model's
    answers. The model calls themselves are inputs. */
module Analysis {
  import opened Wrappers
  import Text

  /** `Classification`: the first model call's answer after validation. */
  datatype Classification = Classification(
    subject: string,
    author: string,
    docType: string,
    yearProcessed: string,
    funding: Option<string>)

  /** `Metadata`: the second model call's answer (`abstract` is `summary`
      here, `abstract` being a Dafny keyword). Validation makes every
      string field present; normalisation may later clear them. */
  datatype Metadata = Metadata(
    title: Option<string>,
    authors: seq<string>,
    presentingAuthor: Option<string>,
    conference: Option<string>,
    conferenceDate: Option<string>,
    location: Option<string>,
    summary: Option<string>,
    keywords: seq<string>)

  /** `Document`: the classification and, for CRE documents, the metadata. */
  datatype Document = Document(classification: Classification, metadata: Option<Metadata>)

  /** `classification.type.upper() == "CRE"`: the category test ignores case. */
  predicate IsCre(c: Classification) {
    Text.Upper(c.docType) == "CRE"
  }

  /** The funding rule: the exact string "null" and every non-CRE answer
      become `None`; nothing else in the record changes. */
  function NormalizeFunding(c: Classification): (r: Classification)
    ensures r.(funding := c.funding) == c
    ensures IsCre(r) == IsCre(c) && r.docType == c.docType
    ensures !IsCre(c) ==> r.funding == None
    ensures c.funding == Some("null") ==> r.funding == None
    ensures IsCre(c) && c.funding != Some("null") ==> r.funding == c.funding
  {
    if c.funding == Some("null") || !IsCre(c) then c.(funding := None) else c
  }

  /** `value.strip().lower() == "null"`. */
  predicate IsNullText(v: string) {
    Text.Lower(Text.Strip(v)) == "null"
  }

  /** One string field of the metadata pass: a "null" text becomes `None`. */
  function NormalizeField(f: Option<string>): (r: Option<string>)
    ensures r.None? <==> f.None? || IsNullText(f.value)
    ensures r.Some? ==> r == f
  {
    match f
    case Some(v) => if IsNullText(v) then None else f
    case None => None
  }

  /** No string field holds a "null" text. */
  predicate FieldClean(f: Option<string>) {
    f.None? || !IsNullText(f.value)
  }

  predicate IsNormalized(m: Metadata) {
    && FieldClean(m.title)
    && FieldClean(m.presentingAuthor)
    && FieldClean(m.conference)
    && FieldClean(m.conferenceDate)
    && FieldClean(m.location)
    && FieldClean(m.summary)
  }

  /** The loop over `metadata.model_dump()`: each string field whose
      stripped, lower-cased value is "null" becomes `None`; the list fields
      are not strings and are left alone. */
  function NormalizeMetadata(m: Metadata): (r: Metadata)
    ensures IsNormalized(r)
    ensures r.authors == m.authors && r.keywords == m.keywords
    ensures r.title.Some? ==> r.title == m.title
    ensures FieldClean(m.title) ==> r.title == m.title
    ensures r.presentingAuthor.Some? ==> r.presentingAuthor == m.presentingAuthor
    ensures FieldClean(m.presentingAuthor) ==> r.presentingAuthor == m.presentingAuthor
    ensures r.conference.Some? ==> r.conference == m.conference
    ensures FieldClean(m.conference) ==> r.conference == m.conference
    ensures r.conferenceDate.Some? ==> r.conferenceDate == m.conferenceDate
    ensures FieldClean(m.conferenceDate) ==> r.conferenceDate == m.conferenceDate
    ensures r.location.Some? ==> r.location == m.location
    ensures FieldClean(m.location) ==> r.location == m.location
    ensures r.summary.Some? ==> r.summary == m.summary
    ensures FieldClean(m.summary) ==> r.summary == m.summary
    ensures IsNormalized(m) ==> r == m
  {
    Metadata(
      NormalizeField(m.title),
      m.authors,
      NormalizeField(m.presentingAuthor),
      NormalizeField(m.conference),
      NormalizeField(m.conferenceDate),
      NormalizeField(m.location),
      NormalizeField(m.summary),
      m.keywords)
  }

  /** Normalising twice is normalising once. */
  lemma NormalizeMetadataIdempotent(m: Metadata)
    ensures NormalizeMetadata(NormalizeMetadata(m)) == NormalizeMetadata(m)
  {
  }

  /** The invariants every analysed document satisfies. */
  predicate WellFormed(d: Document) {
    && (d.classification.funding.Some? ==> IsCre(d.classification))
    && (d.metadata.Some? <==> IsCre(d.classification))
    && (d.metadata.Some? ==> IsNormalized(d.metadata.value))
  }

  /** `analyzeDocument` after its two model calls: `classify` is the first
      call's validated answer (or its exception), `extract` the second's,
      which is consulted only for a CRE document. */
  function AnalyzeDocument(classify: Outcome<Classification>, extract: Outcome<Metadata>): (r: Outcome<Document>)
    ensures classify.Fail? ==> r == Fail(classify.reason)
    ensures r.Ok? <==> classify.Ok? && (IsCre(classify.value) ==> extract.Ok?)
    ensures r.Fail? && classify.Ok? ==> r == Fail(extract.reason)
    ensures r.Ok? ==> WellFormed(r.value)
    ensures r.Ok? ==> r.value.classification == NormalizeFunding(classify.value)
    ensures r.Ok? && r.value.metadata.Some? ==> r.value.metadata.value == NormalizeMetadata(extract.value)
  {
    match classify
    case Fail(e) => Fail(e)
    case Ok(raw) =>
      var c := NormalizeFunding(raw);
      if IsCre(c) then
        match extract
        case Fail(e) => Fail(e)
        case Ok(m) => Ok(Document(c, Some(NormalizeMetadata(m))))
      else
        Ok(Document(c, None))
  }

  /** A FIN document that came back with funding "INT" is stored without funding. */
  lemma NonCreFundingDropped(extract: Outcome<Metadata>)
    ensures AnalyzeDocument(Ok(Classification("Budget", "Cruz J.", "FIN", "2024", Some("INT"))), extract)
         == Ok(Document(Classification("Budget", "Cruz J.", "FIN", "2024", None), None))
  {
    assert Text.Upper("FIN") == "FIN";
  }

  /** The category test ignores case, but the stored type keeps the model's
      spelling; CRE funding other than "null" is kept. */
  lemma LowerCaseCreKeepsSpelling(m: Metadata)
    ensures
      var d := AnalyzeDocument(Ok(Classification("Grant", "Cruz J.", "cre", "2024", Some("EXT"))), Ok(m));
      && d.Ok?
      && d.value.classification.docType == "cre"
      && d.value.classification.funding == Some("EXT")
      && d.value.metadata == Some(NormalizeMetadata(m))
  {
    assert Text.Upper("cre") == "CRE";
  }

  /** The funding test is exact: "null" is cleared but "NULL" is kept. */
  lemma FundingNullIsCaseSensitive()
    ensures NormalizeFunding(Classification("s", "a", "CRE", "2024", Some("null"))).funding == None
    ensures NormalizeFunding(Classification("s", "a", "CRE", "2024", Some("NULL"))).funding == Some("NULL")
  {
    assert Text.Upper("CRE") == "CRE";
  }

  /** Padding and case do not hide a "null" metadata field. */
  lemma PaddedNullCleared()
    ensures IsNullText(" Null\n")
  {
    StripPadded();
    LowerNull();
  }

  lemma LowerNull()
    ensures Text.Lower("Null") == "null"
  {
    var lowered := Text.Lower("Null");
    assert |lowered| == 4;
    assert lowered[0] == Text.LowerChar('N') == 'n';
    assert lowered[1..] == "ull";
  }

  lemma StripPadded()
    ensures Text.Strip(" Null\n") == "Null"
  {
    LeadingSpaceDropped();
    TrailingNewlineDropped();
  }

  lemma LeadingSpaceDropped()
    ensures Text.TrimStart(" Null\n") == "Null\n"
  {
    var padded := " Null\n";
    var inner := "Null\n";
    assert padded[1..] == inner;
    assert !Text.IsSpace(inner[0]);
    assert Text.TrimStart(inner) == inner;
  }

  lemma TrailingNewlineDropped()
    ensures Text.TrimEnd("Null\n") == "Null"
  {
    var inner := "Null\n";
    var word := "Null";
    assert inner[..4] == word;
    assert !Text.IsSpace(word[3]);
    assert Text.TrimEnd(word) == word;
  }

  /** A space inside the word is not stripped, so the field is kept. */
  lemma InnerSpaceKept()
    ensures !IsNullText("nul l")
  {
    SpacedWordUnstripped();
    NullTextLength("nul l");
  }

  /** Lower-casing keeps the length, so only a text that strips to four
      characters can read "null". */
  lemma NullTextLength(v: string)
    ensures IsNullText(v) ==> |Text.Strip(v)| == 4
  {
  }

  lemma SpacedWordUnstripped()
    ensures Text.Strip("nul l") == "nul l"
  {
    var spaced := "nul l";
    assert !Text.IsSpace(spaced[0]);
    assert Text.TrimStart(spaced) == spaced;
    assert !Text.IsSpace(spaced[4]);
    assert Text.TrimEnd(spaced) == spaced;
  }
}

=== FILE: config.dfy ===
/** The pure parts of the configuration helpers: the dictionaries that
    `saveConfig`, `saveSource` and `saveDestination` write, and the one
    `loadConfig` returns after an unreadable file. */
module Config {
  import opened Wrappers

  const SourceKey := "source_path"
  const DestinationKey := "destination_path"

  /** The configuration file's JSON object; every value the program stores is a string. */
  type Settings = map<string, string>

  /** `path.replace("\\", "/")`. */
  function ForwardSlashes(path: string): (r: string)
    ensures |r| == |path|
    ensures '\\' !in r
    ensures forall i :: 0 <= i < |path| && path[i] != '\\' ==> r[i] == path[i]
    ensures forall i :: 0 <= i < |path| && path[i] == '\\' ==> r[i] == '/'
  {
    seq(|path|, i requires 0 <= i < |path| => if path[i] == '\\' then '/' else path[i])
  }

  /** Rewriting the slashes of a rewritten path changes nothing. */
  lemma ForwardSlashesIdempotent(path: string)
    ensures ForwardSlashes(ForwardSlashes(path)) == ForwardSlashes(path)
  {
  }

  /** `saveConfig(source, destination)`: exactly the two path keys, each
      holding its path with every backslash turned into a slash. */
  function SaveConfig(source: string, destination: string): (r: Settings)
    ensures r.Keys == {SourceKey, DestinationKey}
    ensures r[SourceKey] == ForwardSlashes(source) && r[DestinationKey] == ForwardSlashes(destination)
    ensures '\\' !in r[SourceKey] && '\\' !in r[DestinationKey]
    ensures |r[SourceKey]| == |source| && |r[DestinationKey]| == |destination|
    ensures '\\' !in source ==> r[SourceKey] == source
    ensures '\\' !in destination ==> r[DestinationKey] == destination
  {
    map[SourceKey := ForwardSlashes(source), DestinationKey := ForwardSlashes(destination)]
  }

  /** Saving the paths of a saved configuration writes the same configuration. */
  lemma SaveConfigFixedPoint(source: string, destination: string)
    ensures var saved := SaveConfig(source, destination);
      SaveConfig(saved[SourceKey], saved[DestinationKey]) == saved
  {
    ForwardSlashesIdempotent(source);
    ForwardSlashesIdempotent(destination);
  }

  /** `config[key] = value` on the loaded configuration. */
  function Store(config: Settings, key: string, value: string): (r: Settings)
    ensures key in r && r[key] == value
    ensures r.Keys == config.Keys + {key}
    ensures forall k :: k in config && k != key ==> r[k] == config[k]
  {
    config[key := value]
  }

  /** `saveSource(path)` applied to the configuration it loads; the path is
      stored as given, without the slash rewriting `saveConfig` does. */
  function SaveSource(config: Settings, path: string): (r: Settings)
    ensures SourceKey in r && r[SourceKey] == path
    ensures r.Keys == config.Keys + {SourceKey}
    ensures forall k :: k in config && k != SourceKey ==> r[k] == config[k]
  {
    Store(config, SourceKey, path)
  }

  /** `saveDestination(path)` applied to the configuration it loads. */
  function SaveDestination(config: Settings, path: string): (r: Settings)
    ensures DestinationKey in r && r[DestinationKey] == path
    ensures r.Keys == config.Keys + {DestinationKey}
    ensures forall k :: k in config && k != DestinationKey ==> r[k] == config[k]
  {
    Store(config, DestinationKey, path)
  }

  /** The two savers touch different keys, so their order does not matter. */
  lemma SaversCommute(config: Settings, source: string, destination: string)
    ensures SaveSource(SaveDestination(config, destination), source)
         == SaveDestination(SaveSource(config, source), destination)
  {
  }

  /** `config.get(key)`. */
  function Get(config: Settings, key: string): Option<string> {
    if key in config then Some(config[key]) else None
  }

  /** The dictionary `loadConfig` returns when the file cannot be decoded,
      as written: its keys are "source" and "destination". */
  function FallbackAsWritten(defaultPath: string): (r: Settings)
    ensures r.Keys == {"source", "destination"}
  {
    map["source" := defaultPath, "destination" := defaultPath]
  }

  /** With the written fallback the window's `config.get("source_path")`
      finds nothing, and a `saveSource` whose own load meets the undecodable
      file writes a file with no destination path. */
  lemma FallbackAsWrittenLosesPaths(defaultPath: string, chosen: string)
    ensures Get(FallbackAsWritten(defaultPath), SourceKey) == None
    ensures Get(FallbackAsWritten(defaultPath), DestinationKey) == None
    ensures DestinationKey !in SaveSource(FallbackAsWritten(defaultPath), chosen)
  {
  }

  /** The evidently intended fallback: the configuration `saveConfig` has
      just written with the default paths. */
  function Fallback(defaultPath: string): (r: Settings)
    ensures r.Keys == {SourceKey, DestinationKey}
  {
    SaveConfig(defaultPath, defaultPath)
  }

  /** With the intended fallback both paths are found, and saving one path
      keeps the other. */
  lemma FallbackKeepsPaths(defaultPath: string, chosen: string)
    ensures Get(Fallback(defaultPath), SourceKey).Some?
    ensures Get(Fallback(defaultPath), DestinationKey).Some?
    ensures Get(SaveSource(Fallback(defaultPath), chosen), DestinationKey)
         == Get(Fallback(defaultPath), DestinationKey)
    ensures Get(SaveDestination(Fallback(defaultPath), chosen), SourceKey)
         == Get(Fallback(defaultPath), SourceKey)
  {
  }
}

=== FILE: consumer.dfy ===
/** The main window's monitoring: the Run/Stop toggle, the start-up scan,
    and one iteration at a time of the `move_files` consumer loop. The
    external steps (parsing, the model calls, the JSON write, renaming and
    moving) are inputs: each either returns its value or fails. */
module Consumer {
  import opened Wrappers
  import opened Seqs
  import Text
  import Paths
  import Intake
  import Analysis

  /** What `renameFile` returns that the loop uses. */
  datatype Renamed = Renamed(newName: string, originalName: string)

  /** The outcome of every external step for the document being processed. */
  datatype Collaborators = Collaborators(
    parse: Outcome<()>,
    classify: Outcome<Analysis.Classification>,
    extract: Outcome<Analysis.Metadata>,
    writeJson: Outcome<()>,
    rename: Outcome<Renamed>,
    moveDocument: Outcome<string>,
    moveJson: Outcome<()>)

  /** What one loop iteration observes: whether the popped path still
      exists, and how its external steps turn out. */
  datatype Poll = Poll(present: bool, steps: Collaborators)

  /** The window's monitoring state: the shared list, the consumer's
      `queue_was_empty` flag, `monitoring`, the terminal's lines (without
      time stamps) and the queue panel's lines. */
  datatype State = State(
    queue: seq<string>,
    queueWasEmpty: bool,
    monitoring: bool,
    log: seq<string>,
    panel: seq<string>)

  const ParsingLine := "Starting parsing..."
  const EmptyLine := "<b>Queue is empty, there are no files to process.</b>"
  const StartingLine := "<b>File monitoring starting.</b>"
  const StoppingLine := "<b>File monitoring stopped. File currently processed will continue processing.</b>"

  /** `str(e)` of the `TypeError` raised by calling `writeToJSON` with two
      arguments where it takes three. */
  const MissingArgument := "writeToJSON() missing 1 required positional argument: 'source_path'"

  function ProcessingLine(name: string): string {
    "<b>Processing <i>" + name + "</i>.</b>"
  }

  function ErrorLine(name: string, reason: string): string {
    "<b>Error processing " + name + ": " + reason + "</b>"
  }

  function FinishedLine(newName: string): string {
    "<b><i>" + newName + "</i> is finished processing.</b>"
  }

  // ---------------------------------------------------------------------
  // The queue panel

  /** The `.pdf` names the panel shows for entries read in this order. */
  function ShownNames(items: seq<string>): seq<string> {
    if items == [] then []
    else
      match Paths.PdfName(items[0])
      case Some(n) => [n] + ShownNames(items[1..])
      case None => ShownNames(items[1..])
  }

  /** The panel line of the `k`-th shown name: `>>` marks the next file. */
  function PanelLine(k: nat, name: string): string {
    if k == 0 then ">> " + name + "\n" else "[" + Text.NatToString(k) + "] " + name + "\n"
  }

  /** The rendering loop over `items` with its match counter at `count`. */
  function RenderFrom(items: seq<string>, count: nat): seq<string> {
    if items == [] then []
    else
      match Paths.PdfName(items[0])
      case Some(n) => [PanelLine(count, n)] + RenderFrom(items[1..], count + 1)
      case None => RenderFrom(items[1..], count)
  }

  /** The queue panel for the list `q`, read from the back. */
  function Render(q: seq<string>): seq<string> {
    RenderFrom(Reverse(q), 0)
  }

  /** The rendering loop, split in two: pick the shown names, then number them. */
  lemma {:induction false} RenderFromSplits(items: seq<string>, count: nat)
    ensures RenderFrom(items, count) == Numbered(ShownNames(items), count)
    decreases |items|
  {
    if items != [] {
      var rest := items[1..];
      match Paths.PdfName(items[0])
      case Some(n) =>
        RenderFromSplits(rest, count + 1);
        assert ([n] + ShownNames(rest))[1..] == ShownNames(rest);
      case None =>
        RenderFromSplits(rest, count);
    }
  }

  /** Panel lines for `names`, numbered from `count`. */
  function Numbered(names: seq<string>, count: nat): seq<string> {
    if names == [] then [] else [PanelLine(count, names[0])] + Numbered(names[1..], count + 1)
  }

  lemma {:induction false} NumberedLines(names: seq<string>, count: nat)
    ensures |Numbered(names, count)| == |names|
    ensures forall k :: 0 <= k < |names| ==> Numbered(names, count)[k] == PanelLine(count + k, names[k])
    decreases |names|
  {
    if names != [] {
      NumberedLines(names[1..], count + 1);
      forall k | 0 <= k < |names|
        ensures Numbered(names, count)[k] == PanelLine(count + k, names[k])
      {
        if k > 0 {
          var rest := names[1..];
          assert Numbered(names, count) == [PanelLine(count, names[0])] + Numbered(rest, count + 1);
          assert Numbered(rest, count + 1)[k - 1] == PanelLine(count + 1 + (k - 1), rest[k - 1]);
          assert rest[k - 1] == names[k] && count + 1 + (k - 1) == count + k;
        }
      }
    }
  }

  /** The panel has one line per `.pdf`-named entry, in reversed list
      order; the first is marked `>>` and the `k`-th after it `[k]`, the
      count skipping the entries that are not shown. */
  lemma RenderLines(q: seq<string>)
    ensures |Render(q)| == |ShownNames(Reverse(q))|
    ensures forall k :: 0 <= k < |Render(q)| ==>
      Render(q)[k] == PanelLine(k, ShownNames(Reverse(q))[k])
  {
    RenderFromSplits(Reverse(q), 0);
    NumberedLines(ShownNames(Reverse(q)), 0);
  }

  /** A file the main window accepts may still be missing from the panel:
      the panel's pattern is case-sensitive. */
  lemma UpperCasePdfQueuedButNotShown()
    ensures Paths.IsValidPdf("Report.PDF")
    ensures Paths.PdfName("Report.PDF") == None
    ensures Render(["Report.PDF"]) == []
  {
    UpperCaseValid();
    UpperCaseNotMatched();
    var p := "Report.PDF";
    assert Reverse([p]) == [p];
    assert [p][1..] == [];
  }

  lemma UpperCaseValid()
    ensures Paths.IsValidPdf("Report.PDF")
  {
    var p := "Report.PDF";
    assert Paths.NoSep(p);
    assert Paths.LastSep(p) == -1;
    assert p[6..] == ".PDF";
    assert Text.Lower(".PDF") == ".pdf";
    assert p[0] != '.';
    Paths.IsValidPdfIff(p);
  }

  lemma UpperCaseNotMatched()
    ensures Paths.PdfName("Report.PDF") == None
  {
    var p := "Report.PDF";
    assert Paths.NoSep(p);
    assert Paths.LastSep(p) == -1;
    assert Paths.Basename(p) == p;
    assert p[|p| - 4..] == ".PDF";
  }

  // ---------------------------------------------------------------------
  // Processing one document

  /** How far the processing of one document got: every step finished, or a
      step raised with `reason` after the progress lines `lines`. */
  datatype Processed = Finished(lines: seq<string>) | Aborted(lines: seq<string>, reason: string)

  /** Every external step succeeds; the metadata call matters only for a
      CRE classification. */
  predicate AllSucceed(c: Collaborators, writeJson: Outcome<()>) {
    && c.parse.Ok?
    && c.classify.Ok?
    && (Analysis.IsCre(c.classify.value) ==> c.extract.Ok?)
    && writeJson.Ok?
    && c.rename.Ok?
    && c.moveDocument.Ok?
    && c.moveJson.Ok?
  }

  /** The `try` block of `move_files` for the document whose stem is
      `name`, with the JSON write's outcome given separately: the two
      opening lines, then the stages. */
  function RunPipeline(name: string, c: Collaborators, writeJson: Outcome<()>): (r: Processed)
    ensures r.Finished? <==> AllSucceed(c, writeJson)
    ensures |r.lines| >= 2 && r.lines[0] == ProcessingLine(name)
    ensures r.Finished? ==> c.rename.Ok? && r.lines[|r.lines| - 1] == FinishedLine(c.rename.value.newName)
    ensures r.Aborted? ==> r.reason == FirstFailure(c.(writeJson := writeJson))
  {
    var staged := Stages(name, c, writeJson);
    var lines := [ProcessingLine(name), ParsingLine] + staged.lines;
    LastOfAppend([ProcessingLine(name), ParsingLine], staged.lines);
    if staged.Finished? then Finished(lines) else Aborted(lines, staged.reason)
  }

  /** The pipeline after its two opening lines: parsing, analysis, the JSON
      write, renaming and the two moves, each ending the run on failure. */
  function Stages(name: string, c: Collaborators, writeJson: Outcome<()>): (r: Processed)
    ensures r.Finished? <==> AllSucceed(c, writeJson)
    ensures r.Finished? ==> r.lines != [] && r.lines[|r.lines| - 1] == FinishedLine(c.rename.value.newName)
    ensures r.Aborted? ==> r.reason == FirstFailure(c.(writeJson := writeJson))
  {
    match c.parse
    case Fail(e) => Aborted([], e)
    case Ok(_) =>
      var parsed := [name + " successfully parsed.", "Starting document analysis..."];
      var analysis := Analysis.AnalyzeDocument(c.classify, c.extract);
      if analysis.Fail? then Aborted(parsed, analysis.reason)
      else
        var analysed := parsed + [
          "Metadata successfully extracted, document classified as <b><i>"
          + Text.Upper(analysis.value.classification.docType) + "</i></b>."];
        var filed := Filing(c, writeJson);
        if filed.Finished? then Finished(analysed + filed.lines)
        else Aborted(analysed + filed.lines, filed.reason)
  }

  /** The JSON write, the renaming and the two moves. */
  function Filing(c: Collaborators, writeJson: Outcome<()>): (r: Processed)
    ensures r.Finished? <==> writeJson.Ok? && c.rename.Ok? && c.moveDocument.Ok? && c.moveJson.Ok?
    ensures r.Finished? ==> r.lines != [] && r.lines[|r.lines| - 1] == FinishedLine(c.rename.value.newName)
    ensures writeJson.Fail? ==> r == Aborted([], writeJson.reason)
    ensures writeJson.Ok? && c.rename.Fail? ==> r == Aborted([], c.rename.reason)
    ensures writeJson.Ok? && c.rename.Ok? && c.moveDocument.Fail? ==> r.reason == c.moveDocument.reason
    ensures writeJson.Ok? && c.rename.Ok? && c.moveDocument.Ok? && c.moveJson.Fail? ==> r.reason == c.moveJson.reason
  {
    match writeJson
    case Fail(e) => Aborted([], e)
    case Ok(_) =>
      match c.rename
      case Fail(e) => Aborted([], e)
      case Ok(rn) =>
        var renamed := [
          "<i>" + rn.originalName + "</i> has been renamed to <b><i>" + rn.newName + "</i></b>."];
        match c.moveDocument
        case Fail(e) => Aborted(renamed, e)
        case Ok(destination) =>
          match c.moveJson
          case Fail(e) => Aborted(renamed, e)
          case Ok(_) =>
            Finished(renamed + [
              "<i>" + rn.newName + "</i> and its associated JSON file has been moved to "
              + Paths.Dirname(destination) + ".",
              FinishedLine(rn.newName)])
  }

  // ---------------------------------------------------------------------
  // One iteration of the consumer loop

  /** The state once the last entry has been popped: the flag cleared and
      the panel showing the list as it was before the pop. */
  function Taken(s: State): State
    requires s.queue != []
  {
    s.(queue := Intake.Pop(s.queue).0, queueWasEmpty := false, panel := Render(s.queue))
  }

  /** The rest of the iteration for an existing file whose stem is `name`:
      the pipeline's lines go to the log and the panel is cleared; a
      failure adds the error line and stops monitoring. */
  function Process(taken: State, name: string, c: Collaborators, writeJson: Outcome<()>): State {
    match RunPipeline(name, c, writeJson)
    case Finished(lines) => taken.(log := taken.log + lines, panel := [])
    case Aborted(lines, e) =>
      taken.(log := taken.log + lines + [ErrorLine(name, e)], panel := [], monitoring := false)
  }

  /** One iteration of `move_files`, with the JSON write's outcome given. */
  function Advance(s: State, poll: Poll, writeJson: Outcome<()>): State {
    if !s.monitoring then s
    else if s.queue == [] then
      if s.queueWasEmpty then s.(panel := [])
      else s.(panel := [], log := s.log + [EmptyLine], queueWasEmpty := true)
    else if !poll.present then Taken(s)
    else Process(Taken(s), Paths.Stem(Intake.Pop(s.queue).1), poll.steps, writeJson)
  }

  /** One iteration of the consumer loop, with `writeToJSON` called as
      evidently intended so that its outcome is an external one. Once
      `monitoring` is off the loop has exited and nothing changes. */
  function Step(s: State, poll: Poll): (t: State)
    ensures !s.monitoring ==> t == s
    ensures |s.log| <= |t.log| && t.log[..|s.log|] == s.log
    ensures s.monitoring && s.queue == [] ==>
      && t.queue == [] && t.queueWasEmpty && t.monitoring
      && t.log == s.log + (if s.queueWasEmpty then [] else [EmptyLine])
    ensures s.monitoring && s.queue != [] ==>
      && t.queue + [s.queue[|s.queue| - 1]] == s.queue
      && !t.queueWasEmpty
    ensures s.monitoring && s.queue != [] && !poll.present ==>
      t.log == s.log && t.monitoring && t.panel == Render(s.queue)
    ensures s.monitoring && s.queue != [] && poll.present ==>
      (t.monitoring <==> AllSucceed(poll.steps, poll.steps.writeJson))
    ensures s.monitoring && s.queue != [] && poll.present && !t.monitoring ==>
      |t.log| > 0 && t.log[|t.log| - 1] == ErrorLine(Paths.Stem(s.queue[|s.queue| - 1]), FirstFailure(poll.steps))
    ensures s.monitoring && s.queue != [] && poll.present ==>
      && t.panel == [] && |s.log| < |t.log|
      && t.log[|s.log|] == ProcessingLine(Paths.Stem(s.queue[|s.queue| - 1]))
  {
    if s.monitoring && s.queue != [] && poll.present then
      var name := Paths.Stem(Intake.Pop(s.queue).1);
      ProcessOpens(Taken(s), name, poll.steps, poll.steps.writeJson);
      ProcessKeeps(Taken(s), name, poll.steps, poll.steps.writeJson);
      ProcessEnds(Taken(s), name, poll.steps, poll.steps.writeJson);
      Advance(s, poll, poll.steps.writeJson)
    else
      Advance(s, poll, poll.steps.writeJson)
  }

  /** The pipeline reads the JSON write's outcome from its own parameter,
      never from the one stored among the collaborators. */
  lemma ProcessIgnoresStoredWrite(taken: State, name: string, c: Collaborators, stored: Outcome<()>, writeJson: Outcome<()>)
    ensures Process(taken, name, c.(writeJson := stored), writeJson) == Process(taken, name, c, writeJson)
  {
    var c' := c.(writeJson := stored);
    assert c'.parse == c.parse && c'.classify == c.classify && c'.extract == c.extract;
    assert c'.rename == c.rename && c'.moveDocument == c.moveDocument && c'.moveJson == c.moveJson;
    assert Filing(c', writeJson) == Filing(c, writeJson);
    assert Stages(name, c', writeJson) == Stages(name, c, writeJson);
  }

  /** Processing a file clears the panel, and its first new line is the
      "Processing" line with the file's stem. */
  lemma ProcessOpens(taken: State, name: string, c: Collaborators, writeJson: Outcome<()>)
    ensures var t := Process(taken, name, c, writeJson);
      && t.panel == [] && |taken.log| < |t.log|
      && t.log[|taken.log|] == ProcessingLine(name)
  {
    var r := RunPipeline(name, c, writeJson);
    assert (taken.log + r.lines)[|taken.log|] == r.lines[0];
  }

  /** Processing a file only appends to the log and leaves the list and
      its flag alone; monitoring, if it was on, stays on exactly when every
      step succeeds. */
  lemma ProcessKeeps(taken: State, name: string, c: Collaborators, writeJson: Outcome<()>)
    ensures var t := Process(taken, name, c, writeJson);
      && |taken.log| < |t.log| && t.log[..|taken.log|] == taken.log
      && t.queue == taken.queue && t.queueWasEmpty == taken.queueWasEmpty
      && (taken.monitoring ==> (t.monitoring <==> AllSucceed(c, writeJson)))
  {
    var r := RunPipeline(name, c, writeJson);
    if r.Aborted? {
      var error := ErrorLine(name, r.reason);
      assert taken.log + r.lines + [error] == taken.log + (r.lines + [error]);
    }
  }

  /** After processing a file the log ends with the finished line when
      every step succeeds, and otherwise with the error line naming the
      stem and the first failure, monitoring then being off. */
  lemma ProcessEnds(taken: State, name: string, c: Collaborators, writeJson: Outcome<()>)
    ensures var t := Process(taken, name, c, writeJson);
      && (AllSucceed(c, writeJson) ==> t.log != [] && t.log[|t.log| - 1] == FinishedLine(c.rename.value.newName))
      && (!AllSucceed(c, writeJson) ==>
            && !t.monitoring && t.log != []
            && t.log[|t.log| - 1] == ErrorLine(name, FirstFailure(c.(writeJson := writeJson))))
  {
    var r := RunPipeline(name, c, writeJson);
    if r.Aborted? {
      LastOfAppend(taken.log + r.lines, [ErrorLine(name, r.reason)]);
    } else {
      LastOfAppend(taken.log, r.lines);
    }
  }


  /** The reason of the first external step that fails, in pipeline order. */
  function FirstFailure(c: Collaborators): string {
    if c.parse.Fail? then c.parse.reason
    else if c.classify.Fail? then c.classify.reason
    else if Analysis.IsCre(c.classify.value) && c.extract.Fail? then c.extract.reason
    else if c.writeJson.Fail? then c.writeJson.reason
    else if c.rename.Fail? then c.rename.reason
    else if c.moveDocument.Fail? then c.moveDocument.reason
    else if c.moveJson.Fail? then c.moveJson.reason
    else ""
  }

  /** The loop as written: `writeToJSON` always raises `TypeError`, so it
      behaves as the corrected loop does when the JSON write fails with that
      error, and an existing file it takes always stops monitoring. */
  function StepAsWritten(s: State, poll: Poll): (t: State)
    ensures t == Step(s, poll.(steps := poll.steps.(writeJson := Fail(MissingArgument))))
    ensures s.monitoring && s.queue != [] && poll.present ==> !t.monitoring
  {
    if s.monitoring && s.queue != [] && poll.present then
      var name := Paths.Stem(Intake.Pop(s.queue).1);
      ProcessIgnoresStoredWrite(Taken(s), name, poll.steps, Fail(MissingArgument), Fail(MissingArgument));
      ProcessEnds(Taken(s), name, poll.steps, Fail(MissingArgument));
      Advance(s, poll, Fail(MissingArgument))
    else
      Advance(s, poll, Fail(MissingArgument))
  }

  /** As written, no document is ever finished: the first existing file the
      loop takes ends in an error line and switches monitoring off, and the
      loop then does nothing more. */
  lemma AsWrittenStopsOnFirstFile(s: State, poll: Poll, later: Poll)
    requires s.monitoring && s.queue != [] && poll.present
    ensures !StepAsWritten(s, poll).monitoring
    ensures var t := StepAsWritten(s, poll);
      t.log[|t.log| - 1] == ErrorLine(Paths.Stem(s.queue[|s.queue| - 1]), FirstFailureAsWritten(poll.steps))
    ensures StepAsWritten(StepAsWritten(s, poll), later) == StepAsWritten(s, poll)
  {
  }

  /** The first failure as written: the JSON write is reached whenever
      parsing and analysis succeed, and it always fails. */
  function FirstFailureAsWritten(c: Collaborators): string {
    FirstFailure(c.(writeJson := Fail(MissingArgument)))
  }

  /** With the call corrected, a document whose steps all succeed is
      finished: monitoring stays on and the last line says so. */
  lemma CorrectedFinishesDocument(s: State, poll: Poll)
    requires s.monitoring && s.queue != [] && poll.present
    requires AllSucceed(poll.steps, poll.steps.writeJson)
    ensures Step(s, poll).monitoring
    ensures Step(s, poll).log[|Step(s, poll).log| - 1] == FinishedLine(poll.steps.rename.value.newName)
    ensures Step(s, poll).panel == []
  {
    ProcessEnds(Taken(s), Paths.Stem(Intake.Pop(s.queue).1), poll.steps, poll.steps.writeJson);
  }

  /** Runs the loop over a sequence of polls. */
  function Run(s: State, polls: seq<Poll>): State
    decreases |polls|
  {
    if polls == [] then s else Run(Step(s, polls[0]), polls[1..])
  }

  /** Once monitoring is off, no later poll changes anything: the loop
      does not start another iteration. */
  lemma {:induction false} StoppedStaysStopped(s: State, polls: seq<Poll>)
    requires !s.monitoring
    ensures Run(s, polls) == s
    decreases |polls|
  {
    if polls != [] {
      StoppedStaysStopped(Step(s, polls[0]), polls[1..]);
    }
  }

  /** A run of polls on an empty list logs "queue is empty" at most once:
      once if the previous poll saw entries, not at all if it was already
      empty. */
  lemma {:induction false} EmptyPollsLogOnce(s: State, polls: seq<Poll>)
    requires s.monitoring && s.queue == [] && polls != []
    ensures Run(s, polls).log == s.log + (if s.queueWasEmpty then [] else [EmptyLine])
    ensures Run(s, polls).queueWasEmpty && Run(s, polls).monitoring
    decreases |polls|
  {
    var t := Step(s, polls[0]);
    if |polls| > 1 {
      EmptyPollsLogOnce(t, polls[1..]);
    }
  }

  /** A missing file is dropped: the entry leaves the list, nothing is
      logged and the loop goes on. */
  lemma MissingFileSkipped(s: State, poll: Poll)
    requires s.monitoring && s.queue != [] && !poll.present
    ensures Step(s, poll).queue == s.queue[..|s.queue| - 1]
    ensures Step(s, poll).log == s.log && Step(s, poll).monitoring
  {
  }

  // ---------------------------------------------------------------------
  // Starting and stopping

  /** `start_observer`: monitoring on, then the scan of the source folder
      into the shared list; the new consumer starts with
      `queue_was_empty` false. */
  function Start(s: State, listing: seq<Intake.Listed>): (t: State)
    ensures t.monitoring && !t.queueWasEmpty && t.panel == s.panel
    ensures FreshExtension(s.queue, t.queue)
    ensures forall x :: x in t.queue <==> x in s.queue || Intake.Offered(listing, x)
    ensures |s.log| <= |t.log| && t.log[..|s.log|] == s.log
    ensures Intake.Announced(s.queue, t.queue, t.log[|s.log|..])
    ensures t.queue == AppendNew(s.queue, Intake.Admitted(listing))
  {
    Intake.ScanAppendsNew(s.queue, listing);
    var scanned := Intake.Scan(s.queue, listing);
    var log := s.log + scanned.lines;
    assert log[..|s.log|] == s.log && log[|s.log|..] == scanned.lines;
    s.(monitoring := true, queueWasEmpty := false, queue := scanned.queue, log := log)
  }

  /** `toggle_monitoring`: starts when off and stops when on, each time
      with its terminal line first. */
  function Toggle(s: State, listing: seq<Intake.Listed>): (t: State)
    ensures t.monitoring == !s.monitoring
    ensures |t.log| > |s.log| && t.log[..|s.log|] == s.log
    ensures t.log[|s.log|] == if s.monitoring then StoppingLine else StartingLine
    ensures s.monitoring ==> t.queue == s.queue
    ensures !s.monitoring ==> |s.queue| <= |t.queue| && t.queue[..|s.queue|] == s.queue
    ensures !s.monitoring && NoDup(s.queue) ==> NoDup(t.queue)
  {
    if !s.monitoring then
      var announced := s.(log := s.log + [StartingLine]);
      Start(announced, listing)
    else
      s.(log := s.log + [StoppingLine], monitoring := false)
  }

  /** Stopping and starting again keeps the list: the rescan only adds
      files that are not queued yet. */
  lemma RestartKeepsQueue(s: State, listing: seq<Intake.Listed>)
    requires s.monitoring
    ensures var t := Toggle(Toggle(s, []), listing);
      t.monitoring && |s.queue| <= |t.queue| && t.queue[..|s.queue|] == s.queue
  {
  }
}

=== FILE: intake.dfy ===
/** The intake list shared by the scan, the watch handler and the
    consumer. It is a Python list: the scan appends at the back, watch
    events insert at the front, and the consumer pops from the back. */
module Intake {
  import opened Seqs
  import Paths
  import Text

  /** One entry of the source folder listing, already joined to the folder. */
  datatype Listed = Listed(path: string, isFile: bool)

  /** A watch notification: a file created at `srcPath`, or moved from
      `srcPath` to `destPath`. */
  datatype FsEvent =
    | Created(srcPath: string, isDirectory: bool)
    | Moved(srcPath: string, destPath: string, isDirectory: bool)

  /** The list after an intake operation, and the terminal lines it adds. */
  datatype Fill = Fill(queue: seq<string>, lines: seq<string>)

  function InitialLine(path: string): string {
    "Initial file detected: <i>" + Paths.Stem(path) + "</i>. Added to queue."
  }

  function NewFileLine(path: string): string {
    "New file detected: <i>" + Paths.Stem(path) + "</i>. Added to queue."
  }

  /** A listed entry the scan wants: a regular file that `is_valid_file` accepts. */
  predicate Admissible(e: Listed) {
    e.isFile && Paths.IsValidPdf(e.path)
  }

  /** Some admissible listing entry has path `x`. */
  predicate Offered(listing: seq<Listed>, x: string) {
    exists i :: 0 <= i < |listing| && listing[i].path == x && Admissible(listing[i])
  }

  /** The admissible paths of a listing, in listing order. */
  function Admitted(listing: seq<Listed>): (r: seq<string>)
    ensures forall x :: x in r <==> Offered(listing, x)
  {
    if listing == [] then []
    else
      OfferedCons(listing);
      if Admissible(listing[0]) then [listing[0].path] + Admitted(listing[1..]) else Admitted(listing[1..])
  }

  /** A path is offered by a listing when its head offers it or its tail does. */
  lemma OfferedCons(listing: seq<Listed>)
    requires listing != []
    ensures forall x :: Offered(listing, x) <==>
      (listing[0].path == x && Admissible(listing[0])) || Offered(listing[1..], x)
  {
    forall x | Offered(listing[1..], x) ensures Offered(listing, x) {
      var i :| 0 <= i < |listing[1..]| && listing[1..][i].path == x && Admissible(listing[1..][i]);
      assert listing[i + 1] == listing[1..][i];
    }
    forall x | Offered(listing, x) && !(listing[0].path == x && Admissible(listing[0]))
      ensures Offered(listing[1..], x)
    {
      var i :| 0 <= i < |listing| && listing[i].path == x && Admissible(listing[i]);
      assert listing[1..][i - 1] == listing[i];
    }
  }

  /** One iteration of the scan loop: the path goes to the back of the list
      when it is admissible and not yet queued. */
  function ScanOne(q: seq<string>, e: Listed): Fill {
    if Admissible(e) && e.path !in q then Fill(q + [e.path], [InitialLine(e.path)])
    else Fill(q, [])
  }

  /** The initial scan in `start_observer`, over the listing in order. The
      list only grows at the back, by paths it did not hold and without
      repeating one, whatever duplicates it already had. */
  function Scan(q: seq<string>, listing: seq<Listed>): (r: Fill)
    ensures FreshExtension(q, r.queue)
    ensures Announced(q, r.queue, r.lines)
    ensures forall x :: x in r.queue <==> x in q || Offered(listing, x)
    ensures NoDup(q) ==> NoDup(r.queue)
    decreases |listing|
  {
    if listing == [] then
      assert q[|q|..] == [];
      Fill(q, [])
    else
      var e := listing[0];
      var first := ScanOne(q, e);
      var rest := Scan(first.queue, listing[1..]);
      ScanOneKeepsDistinct(q, e);
      assert forall x :: x in rest.queue <==> x in q || Offered(listing, x) by {
        OfferedCons(listing);
      }
      FreshExtensionTrans(q, first.queue, rest.queue);
      AnnouncedTrans(q, first.queue, first.lines, rest.queue, rest.lines);
      assert NoDup(q) ==> NoDup(rest.queue) by {
        if NoDup(q) {
          FreshExtensionNoDup(q, rest.queue);
        }
      }
      Fill(rest.queue, first.lines + rest.lines)
  }

  /** `lines` holds one "Initial file detected" line for each path `r`
      appends to `q`, in the order they were appended. */
  predicate Announced(q: seq<string>, r: seq<string>, lines: seq<string>) {
    && |q| <= |r| && |lines| == |r| - |q|
    && forall i :: 0 <= i < |lines| ==> lines[i] == InitialLine(r[|q| + i])
  }

  /** Announcing two successive extensions announces their composition. */
  lemma AnnouncedTrans(q: seq<string>, a: seq<string>, la: seq<string>, r: seq<string>, lr: seq<string>)
    requires Announced(q, a, la) && Announced(a, r, lr) && r[..|a|] == a
    ensures Announced(q, r, la + lr)
  {
    forall i | 0 <= i < |la| + |lr|
      ensures (la + lr)[i] == InitialLine(r[|q| + i])
    {
      if i < |la| {
        assert r[|q| + i] == r[..|a|][|q| + i];
      } else {
        assert (la + lr)[i] == lr[i - |la|];
      }
    }
  }

  /** One scan iteration only appends, appends only a path the list does
      not hold, and holds afterwards exactly the old entries plus the
      entry's path when it is admissible. */
  lemma ScanOneKeepsDistinct(q: seq<string>, e: Listed)
    ensures FreshExtension(q, ScanOne(q, e).queue)
    ensures NoDup(q) ==> NoDup(ScanOne(q, e).queue)
    ensures Announced(q, ScanOne(q, e).queue, ScanOne(q, e).lines)
    ensures forall x :: x in ScanOne(q, e).queue <==> x in q || (x == e.path && Admissible(e))
  {
    var r := ScanOne(q, e).queue;
    assert r[..|q|] == q;
    assert |r[|q|..]| <= 1;
    if NoDup(q) {
      FreshExtensionNoDup(q, r);
    }
  }

  /** The scan appends the admissible paths of the listing one by one, in
      listing order, skipping each one the list already holds. */
  lemma {:induction false} ScanAppendsNew(q: seq<string>, listing: seq<Listed>)
    ensures Scan(q, listing).queue == AppendNew(q, Admitted(listing))
    decreases |listing|
  {
    if listing != [] {
      AdmittedCons(listing);
      ScanAppendsNew(ScanOne(q, listing[0]).queue, listing[1..]);
      if Admissible(listing[0]) {
        assert ([listing[0].path] + Admitted(listing[1..]))[1..] == Admitted(listing[1..]);
      }
    }
  }

  /** Over a listing whose admissible paths are distinct (the names
      `os.listdir` returns are), the scan appends exactly the admissible
      paths the list does not hold yet, in listing order. */
  lemma ScanAppendsAdmitted(q: seq<string>, listing: seq<Listed>)
    requires NoDup(Admitted(listing))
    ensures Scan(q, listing).queue == q + Without(Admitted(listing), q)
  {
    ScanAppendsNew(q, listing);
    AppendNewIsWithout(q, Admitted(listing));
  }

  /** The path a watch event carries: `src_path` on creation, `dest_path` on a move. */
  function EventPath(ev: FsEvent): string {
    match ev
    case Created(src, _) => src
    case Moved(_, dest, _) => dest
  }

  /** The handler queues an event for a file whose path it accepts. */
  predicate Accepted(ev: FsEvent) {
    !ev.isDirectory && Paths.IsValidDocument(EventPath(ev))
  }

  /** `on_created` / `on_moved` of the watch handler: an accepted path goes
      to the front of the list, without a membership check. */
  function HandleEvent(q: seq<string>, ev: FsEvent): (r: Fill)
    ensures Accepted(ev) ==> r.queue == [EventPath(ev)] + q && r.lines == [NewFileLine(EventPath(ev))]
    ensures !Accepted(ev) ==> r.queue == q && r.lines == []
  {
    if Accepted(ev) then Fill([EventPath(ev)] + q, [NewFileLine(EventPath(ev))]) else Fill(q, [])
  }

  /** An accepted event always lengthens the list by one, and a path already
      queued is then queued once more. */
  lemma {:induction false} EventDoesNotDeduplicate(q: seq<string>, ev: FsEvent)
    requires Accepted(ev)
    ensures |HandleEvent(q, ev).queue| == |q| + 1
    ensures Count(HandleEvent(q, ev).queue, EventPath(ev)) == Count(q, EventPath(ev)) + 1
  {
    var r := HandleEvent(q, ev).queue;
    assert r[1..] == q;
  }

  /** `file_stack.pop()`: the last entry and the list without it. */
  function Pop(q: seq<string>): (r: (seq<string>, string))
    requires q != []
    ensures q == r.0 + [r.1]
  {
    (q[..|q| - 1], q[|q| - 1])
  }

  /** Popping undoes appending. */
  lemma PopAfterAppend(q: seq<string>, path: string)
    ensures Pop(q + [path]) == (q, path)
  {
    assert (q + [path])[..|q|] == q;
  }

  /** One discrete step of the running system as the list sees it. */
  datatype Action = Arrive(event: FsEvent) | Take

  /** The list after a run of actions and the paths taken, in order. */
  datatype Drained = Drained(queue: seq<string>, taken: seq<string>)

  /** Runs the actions: an arrival goes through the handler; a take pops
      when the list is non-empty and otherwise waits. */
  function Drive(q: seq<string>, actions: seq<Action>): Drained
    decreases |actions|
  {
    if actions == [] then Drained(q, [])
    else
      match actions[0]
      case Arrive(ev) => Drive(HandleEvent(q, ev).queue, actions[1..])
      case Take =>
        if q == [] then Drive(q, actions[1..])
        else
          var d := Drive(Pop(q).0, actions[1..]);
          Drained(d.queue, [Pop(q).1] + d.taken)
  }

  /** The accepted event paths among the actions, in arrival order. */
  function Arrivals(actions: seq<Action>): seq<string> {
    if actions == [] then []
    else
      (match actions[0]
       case Arrive(ev) => if Accepted(ev) then [EventPath(ev)] else []
       case Take => [])
      + Arrivals(actions[1..])
  }

  /** The order the consumer sees: whatever was listed before comes out
      from the back of the list first, then the accepted events in the
      order they arrived. Taken paths followed by what is still queued,
      read from the back, are exactly that sequence. */
  lemma {:induction false} DriveOrder(q: seq<string>, actions: seq<Action>)
    ensures Drive(q, actions).taken + Reverse(Drive(q, actions).queue) == Reverse(q) + Arrivals(actions)
    decreases |actions|, 1
  {
    if actions != [] {
      var later := actions[1..];
      assert actions == [actions[0]] + later;
      match actions[0]
      case Arrive(ev) =>
        ArriveOrder(q, ev, later);
      case Take =>
        if q == [] {
          assert Drive(q, actions) == Drive(q, later);
          assert Arrivals(actions) == Arrivals(later);
          DriveOrder(q, later);
        } else {
          TakeOrder(q, later);
          assert Arrivals(actions) == Arrivals(later);
        }
    }
  }

  /** The arrival step of `DriveOrder`: an accepted path joins the front of
      the list, which is the back of the reversed list. */
  lemma {:induction false} ArriveOrder(q: seq<string>, ev: FsEvent, later: seq<Action>)
    ensures var d := Drive(q, [Arrive(ev)] + later);
      d.taken + Reverse(d.queue) == Reverse(q) + Arrivals([Arrive(ev)] + later)
    decreases |later| + 1, 0
  {
    var next := HandleEvent(q, ev).queue;
    DriveArrive(q, ev, later);
    ArrivalReversed(q, ev, later);
    DriveOrder(next, later);
  }

  lemma DriveArrive(q: seq<string>, ev: FsEvent, later: seq<Action>)
    ensures Drive(q, [Arrive(ev)] + later) == Drive(HandleEvent(q, ev).queue, later)
  {
    assert ([Arrive(ev)] + later)[0] == Arrive(ev);
    assert ([Arrive(ev)] + later)[1..] == later;
  }

  lemma ArrivalsCons(ev: FsEvent, later: seq<Action>)
    ensures Arrivals([Arrive(ev)] + later)
         == (if Accepted(ev) then [EventPath(ev)] else []) + Arrivals(later)
  {
    assert ([Arrive(ev)] + later)[0] == Arrive(ev);
    assert ([Arrive(ev)] + later)[1..] == later;
  }

  /** Reading the list from the back, an accepted path comes after
      everything already queued. */
  lemma ArrivalReversed(q: seq<string>, ev: FsEvent, later: seq<Action>)
    ensures Reverse(HandleEvent(q, ev).queue) + Arrivals(later)
         == Reverse(q) + Arrivals([Arrive(ev)] + later)
  {
    ArrivalsCons(ev, later);
    if Accepted(ev) {
      ReverseConsAppend(EventPath(ev), q, Arrivals(later));
    }
  }

  /** The take step of `DriveOrder`: the popped path heads the reversed list. */
  lemma {:induction false} TakeOrder(q: seq<string>, later: seq<Action>)
    requires q != []
    ensures var d := Drive(q, [Take] + later);
      d.taken + Reverse(d.queue) == Reverse(q) + Arrivals(later)
    decreases |later| + 1, 0
  {
    var rest, top := Pop(q).0, Pop(q).1;
    var d := Drive(rest, later);
    var whole := Drive(q, [Take] + later);
    var arrived := Arrivals(later);
    assert whole.taken == [top] + d.taken && whole.queue == d.queue by {
      DriveTake(q, later);
    }
    assert d.taken + Reverse(d.queue) == Reverse(rest) + arrived by {
      DriveOrder(rest, later);
    }
    assert Reverse(q) == [top] + Reverse(rest) by {
      ReverseSnoc(rest, top);
    }
    calc {
      whole.taken + Reverse(whole.queue);
      ([top] + d.taken) + Reverse(d.queue);
      { assert ([top] + d.taken) + Reverse(d.queue) == [top] + (d.taken + Reverse(d.queue)); }
      [top] + (Reverse(rest) + arrived);
      { assert [top] + (Reverse(rest) + arrived) == ([top] + Reverse(rest)) + arrived; }
      Reverse(q) + arrived;
    }
  }

  lemma DriveTake(q: seq<string>, later: seq<Action>)
    requires q != []
    ensures Drive(q, [Take] + later)
         == Drained(Drive(Pop(q).0, later).queue, [Pop(q).1] + Drive(Pop(q).0, later).taken)
  {
    assert ([Take] + later)[0] == Take;
    assert ([Take] + later)[1..] == later;
  }

  /** Hence every taken path is in that order: the entries already listed
      before any event, last entry first, and only after them the events. */
  lemma TakenInOrder(q: seq<string>, actions: seq<Action>)
    ensures var d := Drive(q, actions);
      |d.taken| <= |Reverse(q) + Arrivals(actions)| && d.taken == (Reverse(q) + Arrivals(actions))[..|d.taken|]
  {
    var d := Drive(q, actions);
    DriveOrder(q, actions);
    assert (d.taken + Reverse(d.queue))[..|d.taken|] == d.taken;
  }

  /** From an empty list, a scan followed by any run of arrivals and takes
      processes the scanned files in reverse listing order, before any event. */
  lemma ScanThenDrive(listing: seq<Listed>, actions: seq<Action>)
    requires NoDup(Admitted(listing))
    ensures var d := Drive(Scan([], listing).queue, actions);
      && |d.taken| <= |Reverse(Admitted(listing)) + Arrivals(actions)|
      && d.taken == (Reverse(Admitted(listing)) + Arrivals(actions))[..|d.taken|]
  {
    assert [] + Admitted(listing) == Admitted(listing);
    ScanAppendsAdmitted([], listing);
    WithoutNothing(Admitted(listing));
    TakenInOrder(Scan([], listing).queue, actions);
  }

  /** Two files listed as `a.pdf` then `b.pdf` are processed `b.pdf` first. */
  lemma ListedPairComesOutReversed()
    ensures var listing := [Listed("a.pdf", true), Listed("b.pdf", true)];
      Drive(Scan([], listing).queue, [Take, Take]).taken == ["b.pdf", "a.pdf"]
  {
    ScanPair();
    TakePair(["a.pdf", "b.pdf"]);
  }

  lemma ScanPair()
    ensures Scan([], [Listed("a.pdf", true), Listed("b.pdf", true)]).queue == ["a.pdf", "b.pdf"]
  {
    var listing := [Listed("a.pdf", true), Listed("b.pdf", true)];
    AdmittedPair();
    assert [] + Admitted(listing) == ["a.pdf", "b.pdf"];
    ScanAppendsAdmitted([], listing);
    WithoutNothing(Admitted(listing));
  }

  /** Two takes from a two-entry list take the back entry first. */
  lemma TakePair(q: seq<string>)
    requires |q| == 2
    ensures Drive(q, [Take, Take]).taken == [q[1], q[0]]
  {
    DriveTake(q, [Take]);
    assert Pop(q) == ([q[0]], q[1]);
    DriveTake([q[0]], []);
    assert Pop([q[0]]) == ([], q[0]);
    assert [Take] + [Take] == [Take, Take];
    assert [Take] + [] == [Take];
  }

  lemma AdmittedPair()
    ensures Admitted([Listed("a.pdf", true), Listed("b.pdf", true)]) == ["a.pdf", "b.pdf"]
  {
    PlainPdfIsValid("a.pdf");
    PlainPdfIsValid("b.pdf");
    AdmittedTwo(Listed("a.pdf", true), Listed("b.pdf", true));
  }

  /** Two admissible entries are both admitted, in listing order. */
  lemma AdmittedTwo(a: Listed, b: Listed)
    requires Admissible(a) && Admissible(b)
    ensures Admitted([a, b]) == [a.path, b.path]
  {
    assert Admitted([b]) == [b.path] by {
      AdmittedCons([b]);
      assert [b][1..] == [];
    }
    AdmittedCons([a, b]);
    assert [a, b][1..] == [b];
  }

  /** `Admitted` on a non-empty listing, one entry at a time. */
  lemma AdmittedCons(listing: seq<Listed>)
    requires listing != []
    ensures Admitted(listing)
         == (if Admissible(listing[0]) then [listing[0].path] else []) + Admitted(listing[1..])
  {
  }

  /** A one-letter name with a lower-case `.pdf` extension is accepted. */
  lemma PlainPdfIsValid(p: string)
    requires |p| == 5 && p[0] != '.' && !Paths.IsSep(p[0]) && p[1..] == ".pdf"
    ensures Paths.IsValidPdf(p)
  {
    assert Paths.NoSep(p);
    assert Paths.LastSep(p) == -1;
    assert Text.Lower(p[1..]) == ".pdf";
    Paths.IsValidPdfIff(p);
  }
}

=== FILE: paths.dfy ===
/** The Windows flavour of `os.path` used by the scanner: two separators,
    `\` and `/`, and Python's `splitext` rule for the last dot. */
module Paths {
  import opened Wrappers
  import Text

  predicate IsSep(c: char) {
    c == '\\' || c == '/'
  }

  /** No character of `s` is a separator. */
  predicate NoSep(s: string) {
    forall k :: 0 <= k < |s| ==> !IsSep(s[k])
  }

  /** `str.rfind` for one character: the last index holding `c`, or -1. */
  function RFind(s: string, c: char): (r: int)
    ensures -1 <= r < |s|
    ensures r >= 0 ==> s[r] == c
    ensures forall k :: r < k < |s| ==> s[k] != c
  {
    if s == [] then -1
    else if s[|s| - 1] == c then |s| - 1
    else RFind(s[..|s| - 1], c)
  }

  /** The larger of the two `rfind`s for `\` and `/`, as `splitext` computes it. */
  function LastSep(p: string): (r: int)
    ensures -1 <= r < |p|
    ensures r >= 0 ==> IsSep(p[r])
    ensures forall k :: r < k < |p| ==> !IsSep(p[k])
  {
    var back := RFind(p, '\\');
    var slash := RFind(p, '/');
    if back > slash then back else slash
  }

  /** Some character of `p[lo..hi]` is not a dot. */
  predicate NameBefore(p: string, lo: int, hi: int)
    requires 0 <= lo && hi <= |p|
  {
    exists k :: lo <= k < hi && p[k] != '.'
  }

  /** A non-empty extension: a dot followed by characters that are neither
      dots nor separators. */
  predicate IsExtension(e: string) {
    && |e| >= 1
    && e[0] == '.'
    && forall k :: 1 <= k < |e| ==> e[k] != '.' && !IsSep(e[k])
  }

  /** `os.path.splitext`: the extension starts at the last dot of the final
      component, unless everything in that component before the dot is dots. */
  function SplitExt(p: string): (r: (string, string))
    ensures |r.0| <= |p| && r.0 == p[..|r.0|] && r.1 == p[|r.0|..]
    ensures r.1 == [] || IsExtension(r.1)
    ensures r.1 != [] ==> NameBefore(p, LastSep(p) + 1, |r.0|)
    ensures r.1 == [] ==>
      forall d :: LastSep(p) < d < |p| && p[d] == '.' ==> !NameBefore(p, LastSep(p) + 1, d)
  {
    var sepIndex := LastSep(p);
    var dotIndex := RFind(p, '.');
    if dotIndex > sepIndex && NameBefore(p, sepIndex + 1, dotIndex) then
      (p[..dotIndex], p[dotIndex..])
    else
      (p, [])
  }

  function Ext(p: string): string {
    SplitExt(p).1
  }

  /** `os.path.basename`: everything after the last separator. */
  function Basename(p: string): (r: string)
    ensures |r| <= |p| && r == p[|p| - |r|..]
    ensures NoSep(r)
    ensures |r| == |p| || IsSep(p[|p| - |r| - 1])
  {
    p[LastSep(p) + 1..]
  }

  /** `os.path.splitext(os.path.basename(p))[0]`. */
  function Stem(p: string): string {
    SplitExt(Basename(p)).0
  }

  /** `p` ends with `e`, compared after lower-casing. */
  predicate EndsWithIgnoringCase(p: string, e: string) {
    |p| >= |e| && Text.Lower(p[|p| - |e|..]) == e
  }

  /** `MainWindow.is_valid_file`: the lower-cased extension is `.pdf`. */
  predicate IsValidPdf(p: string) {
    Text.Lower(Ext(p)) == ".pdf"
  }

  /** `MyEventHandler.is_valid_file`: the lower-cased extension is in the
      handler's allow-list `{'.pdf', '.img'}`. */
  predicate IsValidDocument(p: string) {
    Text.Lower(Ext(p)) in {".pdf", ".img"}
  }

  /** A lower-cased extension test, restated on the path itself: the path
      ends in `e` ignoring case and its last component has a character other
      than a dot in front of that ending. */
  lemma {:induction false} LowerExtIff(p: string, e: string)
    requires IsExtension(e) && Text.Lower(e) == e
    ensures Text.Lower(Ext(p)) == e <==>
      EndsWithIgnoringCase(p, e) && NameBefore(p, LastSep(p) + 1, |p| - |e|)
  {
    var x := Ext(p);
    if Text.Lower(x) == e {
      assert |x| == |e|;
      assert SplitExt(p).0 + x == p;
      assert p[|p| - |e|..] == x;
    }
    if EndsWithIgnoringCase(p, e) && NameBefore(p, LastSep(p) + 1, |p| - |e|) {
      var d := |p| - |e|;
      var tail := p[d..];
      assert Text.LowerChar(p[d]) == Text.Lower(tail)[0] == '.';
      assert p[d] == '.';
      forall k | d < k < |p|
        ensures p[k] != '.' && !IsSep(p[k])
      {
        assert Text.LowerChar(p[k]) == Text.Lower(tail)[k - d] == e[k - d];
      }
      var dot := RFind(p, '.');
      assert dot == d;
      var w :| LastSep(p) + 1 <= w < d && p[w] != '.';
      assert LastSep(p) < d;
      assert NameBefore(p, LastSep(p) + 1, dot);
      assert Ext(p) == tail;
    }
  }

  /** `MainWindow.is_valid_file` accepts exactly the paths ending in `.pdf`
      in any case, with a real name in front of the extension. */
  lemma IsValidPdfIff(p: string)
    ensures IsValidPdf(p) <==>
      EndsWithIgnoringCase(p, ".pdf") && NameBefore(p, LastSep(p) + 1, |p| - 4)
  {
    LowerExtIff(p, ".pdf");
  }

  /** `MyEventHandler.is_valid_file` accepts exactly the paths ending in
      `.pdf` or `.img` in any case, with a real name in front of the extension. */
  lemma IsValidDocumentIff(p: string)
    ensures IsValidDocument(p) <==>
      (EndsWithIgnoringCase(p, ".pdf") || EndsWithIgnoringCase(p, ".img"))
      && NameBefore(p, LastSep(p) + 1, |p| - 4)
  {
    LowerExtIff(p, ".pdf");
    LowerExtIff(p, ".img");
  }

  /** Every path the main window accepts is accepted by the event handler. */
  lemma ValidPdfIsValidDocument(p: string)
    ensures IsValidPdf(p) ==> IsValidDocument(p)
  {
  }

  /** The name the file-name suffix rule reads: at least one character
      followed by `.pdf`, compared case-sensitively. */
  predicate PdfFile(n: string) {
    |n| >= 5 && n[|n| - 4..] == ".pdf"
  }

  /** `b` is a `PdfFile` name followed by one newline. */
  predicate EndsWithPdfLine(b: string) {
    b != [] && b[|b| - 1] == '\n' && PdfFile(b[..|b| - 1])
  }

  lemma DropNewline(b: string)
    requires NoSep(b) && EndsWithPdfLine(b)
    ensures NoSep(b[..|b| - 1]) && b == b[..|b| - 1] + "\n"
  {
  }

  /** `re.search(r'([^\\/]+\.pdf)$', p).group(1)`, or `None` when the search
      fails. The group is the whole last component; `$` also matches just
      before one final newline. */
  function PdfName(p: string): (r: Option<string>)
    ensures r.Some? ==> PdfFile(r.value) && NoSep(r.value)
    ensures r.Some? ==> Basename(p) == r.value || Basename(p) == r.value + "\n"
    ensures PdfFile(Basename(p)) ==> r == Some(Basename(p))
    ensures r.None? ==> !PdfFile(Basename(p)) && !EndsWithPdfLine(Basename(p))
  {
    var b := Basename(p);
    if PdfFile(b) then Some(b)
    else if EndsWithPdfLine(b) then
      DropNewline(b);
      Some(b[..|b| - 1])
    else None
  }

  /** `getFilename(source, index)`: 0 gives the stem, 1 the stem with
      `.json`, 2 the stem with `.md`; any other index falls through every
      branch and returns `None`. */
  function GetFilename(source: string, index: int): (r: Option<string>)
    ensures r.Some? <==> 0 <= index <= 2
    ensures index == 0 ==>
      NoSep(r.value) && Basename(source) == r.value + Ext(Basename(source))
    ensures index == 1 ==>
      && |r.value| >= 5 && r.value[|r.value| - 5..] == ".json"
      && Basename(source) == r.value[..|r.value| - 5] + Ext(Basename(source))
    ensures index == 2 ==>
      && |r.value| >= 3 && r.value[|r.value| - 3..] == ".md"
      && Basename(source) == r.value[..|r.value| - 3] + Ext(Basename(source))
  {
    var filename := Stem(source);
    assert Basename(source) == filename + Ext(Basename(source)) && NoSep(filename) by {
      StemOfBasename(source);
    }
    if index == 0 then Some(filename)
    else if index == 1 then
      var named := filename + ".json";
      assert named[..|filename|] == filename && named[|filename|..] == ".json";
      Some(named)
    else if index == 2 then
      var named := filename + ".md";
      assert named[..|filename|] == filename && named[|filename|..] == ".md";
      Some(named)
    else None
  }

  /** The stem is the basename without its extension, and so has no separator. */
  lemma StemOfBasename(source: string)
    ensures Basename(source) == Stem(source) + Ext(Basename(source))
    ensures NoSep(Stem(source))
  {
    RootKeepsNoSep(Basename(source));
  }

  /** The root `splitext` leaves of a separator-free name is separator-free. */
  lemma RootKeepsNoSep(b: string)
    requires NoSep(b)
    ensures b == SplitExt(b).0 + Ext(b) && NoSep(SplitExt(b).0)
  {
    var root := SplitExt(b).0;
    assert b == root + SplitExt(b).1;
    forall k | 0 <= k < |root|
      ensures !IsSep(root[k])
    {
      assert root[k] == b[k];
    }
  }

  /** `os.path.join(directory, name)` for a separator-free name: a backslash
      goes between them unless the directory is empty or already ends in a
      separator. */
  function Join(directory: string, name: string): string {
    if directory == [] then name
    else if IsSep(directory[|directory| - 1]) then directory + name
    else directory + "\\" + name
  }

  /** Joining a separator-free name onto any directory gives a path whose
      basename is that name. */
  lemma JoinBasename(directory: string, name: string)
    requires NoSep(name)
    ensures Basename(Join(directory, name)) == name
  {
    var j := Join(directory, name);
    assert j[|j| - |name|..] == name;
    assert |j| == |name| || IsSep(j[|j| - |name| - 1]);
    var last := LastSep(j);
    assert last == |j| - |name| - 1;
  }

  /** Drops trailing separators. */
  function TrimSeps(s: string): (r: string)
    ensures |r| <= |s| && r == s[..|r|]
    ensures forall k :: |r| <= k < |s| ==> IsSep(s[k])
    ensures r == [] || !IsSep(r[|r| - 1])
  {
    if s != [] && IsSep(s[|s| - 1]) then
      var rest := TrimSeps(s[..|s| - 1]);
      assert forall k :: |rest| <= k < |s| - 1 ==> s[k] == s[..|s| - 1][k];
      rest
    else s
  }

  /** `os.path.dirname`: everything before the last component, without its
      trailing separators unless nothing else is left. */
  function Dirname(p: string): (r: string)
    ensures |r| <= LastSep(p) + 1 && r == p[..|r|]
    ensures forall k :: |r| <= k <= LastSep(p) ==> IsSep(p[k])
    ensures r == [] || !IsSep(r[|r| - 1]) || forall k :: 0 <= k < |r| ==> IsSep(r[k])
    ensures TrimSeps(p[..LastSep(p) + 1]) == [] ==> r == p[..LastSep(p) + 1]
  {
    var head := p[..LastSep(p) + 1];
    var stripped := TrimSeps(head);
    assert forall k :: |stripped| <= k <= LastSep(p) ==> p[k] == head[k];
    if stripped == [] then head else stripped
  }

  /** The directory of a separator-free name joined onto a directory that
      does not end in a separator is that directory. */
  lemma DirnameJoin(directory: string, name: string)
    requires NoSep(name)
    requires directory == [] || !IsSep(directory[|directory| - 1])
    ensures Dirname(Join(directory, name)) == directory
  {
    var j := Join(directory, name);
    if directory != [] {
      assert j[..|directory| + 1] == directory + "\\";
      assert IsSep(j[|directory|]);
      assert forall k :: |directory| < k < |j| ==> j[k] == name[k - |directory| - 1];
      assert LastSep(j) == |directory|;
      assert (directory + "\\")[..|directory|] == directory;
    }
  }
}

=== FILE: prototype.dfy ===
/** The earlier window of `gui.py`: the same list discipline with no
    extension filter and no duplicate check, and a consumer that moves each
    file into a fixed destination folder and keeps going after an error. */
module Prototype {
  import opened Wrappers
  import Paths
  import Intake
  import Consumer

  const DestinationDir := "C:\\Users\\ACER-PC\\Downloads\\test_project\\destination"

  /** The regular files of a listing, in listing order. */
  function Files(listing: seq<Intake.Listed>): (r: seq<string>)
    ensures |r| <= |listing|
    ensures forall i :: 0 <= i < |listing| && listing[i].isFile ==> listing[i].path in r
  {
    if listing == [] then []
    else
      var rest := Files(listing[1..]);
      assert forall i :: 1 <= i < |listing| ==> listing[i] == listing[1..][i - 1];
      if listing[0].isFile then [listing[0].path] + rest else rest
  }

  /** The scan loop of `start_observer`: every regular file is appended. */
  function Scan(q: seq<string>, listing: seq<Intake.Listed>): (r: seq<string>)
    ensures r == q + Files(listing)
    decreases |listing|
  {
    if listing == [] then q
    else
      var first := if listing[0].isFile then q + [listing[0].path] else q;
      Scan(first, listing[1..])
  }

  /** Listing a file that is already queued queues it a second time. */
  lemma ScanKeepsDuplicates(path: string)
    ensures Scan([path], [Intake.Listed(path, true)]) == [path, path]
  {
    assert Files([Intake.Listed(path, true)]) == [path];
  }

  /** `on_created` / `on_moved`: any non-directory event goes to the front. */
  function HandleEvent(q: seq<string>, ev: Intake.FsEvent): (r: seq<string>)
    ensures ev.isDirectory ==> r == q
    ensures !ev.isDirectory ==> |r| == |q| + 1 && r[0] == Intake.EventPath(ev) && r[1..] == q
  {
    if ev.isDirectory then q else [Intake.EventPath(ev)] + q
  }

  /** The prototype's handler accepts everything the main window's handler
      accepts, and more. */
  lemma HandlerAcceptsMore(q: seq<string>, ev: Intake.FsEvent)
    requires Intake.Accepted(ev)
    ensures HandleEvent(q, ev) == Intake.HandleEvent(q, ev).queue
  {
  }

  /** A move attempted by the consumer and what `shutil.move` did. */
  datatype Transfer = Transfer(source: string, target: string, result: Outcome<()>)

  datatype State = State(queue: seq<string>, monitoring: bool, transfers: seq<Transfer>)

  /** What one iteration observes: whether the popped path exists, and how
      the move turns out. */
  datatype Poll = Poll(present: bool, move: Outcome<()>)

  /** `Join(DestinationDir, basename)`: where a file is moved to. */
  function Target(path: string): (r: string)
    ensures Paths.Basename(r) == Paths.Basename(path)
    ensures Paths.Dirname(r) == DestinationDir
  {
    Paths.JoinBasename(DestinationDir, Paths.Basename(path));
    Paths.DirnameJoin(DestinationDir, Paths.Basename(path));
    Paths.Join(DestinationDir, Paths.Basename(path))
  }

  /** One iteration of the prototype's `move_files`: pop the last entry;
      if it exists, try moving it to `Target`. A failed move is only
      printed, so `monitoring` never changes. */
  function Step(s: State, poll: Poll): (t: State)
    ensures t.monitoring == s.monitoring
    ensures !s.monitoring || s.queue == [] ==> t == s
    ensures s.monitoring && s.queue != [] ==> t.queue + [s.queue[|s.queue| - 1]] == s.queue
    ensures s.monitoring && s.queue != [] && poll.present ==>
      t.transfers == s.transfers + [Transfer(s.queue[|s.queue| - 1], Target(s.queue[|s.queue| - 1]), poll.move)]
    ensures !poll.present ==> t.transfers == s.transfers
  {
    if !s.monitoring || s.queue == [] then s
    else
      var (rest, path) := Intake.Pop(s.queue);
      if poll.present then
        s.(queue := rest, transfers := s.transfers + [Transfer(path, Target(path), poll.move)])
      else
        s.(queue := rest)
  }

  /** Runs the prototype's loop over a sequence of polls. */
  function Run(s: State, polls: seq<Poll>): State
    decreases |polls|
  {
    if polls == [] then s else Run(Step(s, polls[0]), polls[1..])
  }

  /** However many moves fail, the prototype keeps monitoring. The moves
      already attempted stay recorded, and each new attempt uses up one
      taken path. */
  lemma {:induction false} RunKeepsMonitoring(s: State, polls: seq<Poll>)
    ensures Run(s, polls).monitoring == s.monitoring
    ensures |s.transfers| <= |Run(s, polls).transfers| && Run(s, polls).transfers[..|s.transfers|] == s.transfers
    ensures |Run(s, polls).transfers| - |s.transfers| <= |s.queue| - |Run(s, polls).queue|
    decreases |polls|
  {
    if polls != [] {
      var next := Step(s, polls[0]);
      assert Run(s, polls) == Run(next, polls[1..]);
      StepCounts(s, polls[0]);
      RunKeepsMonitoring(next, polls[1..]);
      var t := Run(next, polls[1..]).transfers;
      assert t[..|s.transfers|] == t[..|next.transfers|][..|s.transfers|];
    }
  }

  /** One iteration records at most one new move, and only by taking a path. */
  lemma StepCounts(s: State, poll: Poll)
    ensures var t := Step(s, poll);
      && |s.transfers| <= |t.transfers| && t.transfers[..|s.transfers|] == s.transfers
      && |t.transfers| - |s.transfers| <= |s.queue| - |t.queue|
  {
  }

  /** While the list lasts, every poll that finds its path attempts one move. */
  lemma {:induction false} RunMovesEveryPresentPath(s: State, polls: seq<Poll>)
    requires s.monitoring && |polls| <= |s.queue|
    requires forall i :: 0 <= i < |polls| ==> polls[i].present
    ensures |Run(s, polls).transfers| == |s.transfers| + |polls|
    decreases |polls|
  {
    if polls != [] {
      var next := Step(s, polls[0]);
      assert polls[0].present;
      assert forall i :: 0 <= i < |polls[1..]| ==> polls[1..][i].present by {
        forall i | 0 <= i < |polls[1..]| ensures polls[1..][i].present {
          assert polls[1..][i] == polls[i + 1];
        }
      }
      RunMovesEveryPresentPath(next, polls[1..]);
    }
  }

  /** The two consumers differ on a failure: the main window stops
      monitoring, the prototype carries on with the next entry. */
  lemma ErrorPolicyDiffers(q: seq<string>, steps: Consumer.Collaborators, reason: string)
    requires q != [] && steps.parse == Fail(reason)
    ensures !Consumer.Step(Consumer.State(q, false, true, [], []), Consumer.Poll(true, steps)).monitoring
    ensures Step(State(q, true, []), Poll(true, Fail(reason))).monitoring
  {
  }
}

=== FILE: seqs.dfy ===
/** Sequence vocabulary for reasoning about Python lists. */
module Seqs {

  /** Python's `reversed(...)`, collected into a list. */
  function Reverse<T>(s: seq<T>): (r: seq<T>)
    ensures |r| == |s|
    ensures forall i :: 0 <= i < |s| ==> r[i] == s[|s| - 1 - i]
  {
    if s == [] then [] else Reverse(s[1..]) + [s[0]]
  }

  /** Reversing a list with one more entry at the back puts that entry first. */
  lemma ReverseSnoc<T>(s: seq<T>, x: T)
    ensures Reverse(s + [x]) == [x] + Reverse(s)
  {
    ReverseAppend(s, [x]);
    assert Reverse([x]) == [x];
  }

  /** Reversing a list with one more entry at the front puts that entry
      last, just before whatever follows. */
  lemma ReverseConsAppend<T>(x: T, s: seq<T>, tail: seq<T>)
    ensures Reverse([x] + s) + tail == Reverse(s) + ([x] + tail)
  {
    ReverseAppend([x], s);
    assert Reverse([x]) == [x];
    assert (Reverse(s) + [x]) + tail == Reverse(s) + ([x] + tail);
  }

  lemma ReverseAppend<T>(a: seq<T>, b: seq<T>)
    ensures Reverse(a + b) == Reverse(b) + Reverse(a)
  {
    var l, r := Reverse(a + b), Reverse(b) + Reverse(a);
    assert |l| == |r|;
    forall i | 0 <= i < |l|
      ensures l[i] == r[i]
    {
      if i < |b| {
        assert l[i] == (a + b)[|a| + |b| - 1 - i];
      }
    }
  }

  /** No value occurs twice. */
  predicate NoDup<T(==)>(s: seq<T>) {
    forall i, j :: 0 <= i < j < |s| ==> s[i] != s[j]
  }

  /** The number of occurrences of `x` in `s`. */
  function Count<T(==)>(s: seq<T>, x: T): nat {
    if s == [] then 0 else (if s[0] == x then 1 else 0) + Count(s[1..], x)
  }

  /** The entries of `xs` that do not occur in `q`, in their order in `xs`. */
  function Without<T(==,!new)>(xs: seq<T>, q: seq<T>): (r: seq<T>)
    ensures |r| <= |xs|
    ensures forall x :: x in r <==> x in xs && x !in q
  {
    if xs == [] then [] else (if xs[0] in q then [] else [xs[0]]) + Without(xs[1..], q)
  }

  /** Removing nothing keeps everything. */
  lemma {:induction false} WithoutNothing<T(!new)>(xs: seq<T>)
    ensures Without(xs, []) == xs
  {
    if xs != [] {
      WithoutNothing(xs[1..]);
    }
  }

  /** Also removing a value that does not occur changes nothing. */
  lemma {:induction false} WithoutAbsent<T(!new)>(xs: seq<T>, q: seq<T>, x: T)
    requires x !in xs
    ensures Without(xs, q + [x]) == Without(xs, q)
  {
    if xs != [] {
      WithoutAbsent(xs[1..], q, x);
    }
  }

  /** `Without` on a list with a known first entry. */
  lemma WithoutCons<T(!new)>(x: T, xs: seq<T>, q: seq<T>)
    ensures Without([x] + xs, q) == (if x in q then [] else [x]) + Without(xs, q)
  {
    assert ([x] + xs)[1..] == xs;
  }

  /** Appends the values of `xs` one by one, skipping each one the list
      already holds at that moment. */
  function AppendNew<T(==)>(q: seq<T>, xs: seq<T>): seq<T>
    decreases |xs|
  {
    if xs == [] then q
    else AppendNew(if xs[0] in q then q else q + [xs[0]], xs[1..])
  }

  /** When `xs` holds no value twice, appending its new values one by one is
      appending, at once and in order, those `q` does not hold. */
  lemma {:induction false} AppendNewIsWithout<T(!new)>(q: seq<T>, xs: seq<T>)
    requires NoDup(xs)
    ensures AppendNew(q, xs) == q + Without(xs, q)
    decreases |xs|
  {
    if xs != [] {
      var x := xs[0];
      assert xs == [x] + xs[1..];
      NoDupCons(x, xs[1..]);
      WithoutCons(x, xs[1..], q);
      if x in q {
        AppendNewIsWithout(q, xs[1..]);
      } else {
        AppendNewIsWithout(q + [x], xs[1..]);
        WithoutAbsent(xs[1..], q, x);
        assert (q + [x]) + Without(xs[1..], q) == q + ([x] + Without(xs[1..], q));
      }
    }
  }

  /** Appending a non-empty list keeps the front and ends with its last entry. */
  lemma LastOfAppend<T>(a: seq<T>, b: seq<T>)
    ensures |a + b| == |a| + |b| && (a + b)[..|a|] == a
    ensures b != [] ==> (a + b)[|a + b| - 1] == b[|b| - 1]
  {
  }

  /** The tail of a duplicate-free list is duplicate-free and lacks its head. */
  lemma NoDupCons<T>(x: T, xs: seq<T>)
    requires NoDup([x] + xs)
    ensures NoDup(xs) && x !in xs
  {
    assert forall i :: 0 <= i < |xs| ==> xs[i] == ([x] + xs)[i + 1];
    forall k | 0 <= k < |xs|
      ensures xs[k] != x
    {
      assert ([x] + xs)[0] == x && ([x] + xs)[k + 1] == xs[k];
    }
  }

  /** `r` extends `q` with distinct values none of which `q` holds. */
  predicate FreshExtension<T(==)>(q: seq<T>, r: seq<T>) {
    && |q| <= |r| && r[..|q|] == q
    && (forall i :: |q| <= i < |r| ==> r[i] !in q)
    && NoDup(r[|q|..])
  }

  /** Fresh extensions compose. */
  lemma FreshExtensionTrans<T>(q: seq<T>, a: seq<T>, r: seq<T>)
    requires FreshExtension(q, a) && FreshExtension(a, r)
    ensures FreshExtension(q, r)
  {
    assert r[..|q|] == a[..|q|];
    forall i | |q| <= i < |r|
      ensures r[i] !in q
    {
      if i < |a| {
        assert r[i] == a[i];
      } else {
        assert forall x :: x in q ==> x in a by {
          forall x | x in q ensures x in a {
            var k :| 0 <= k < |q| && q[k] == x;
            assert a[k] == x;
          }
        }
      }
    }
    forall i, j | |q| <= i < j < |r|
      ensures r[i] != r[j]
    {
      if j < |a| {
        assert r[i] == a[|q|..][i - |q|] && r[j] == a[|q|..][j - |q|];
      } else if i < |a| {
        assert r[i] == a[i];
      } else {
        assert r[i] == r[|a|..][i - |a|] && r[j] == r[|a|..][j - |a|];
      }
    }
    assert forall i :: 0 <= i < |r| - |q| ==> r[|q|..][i] == r[|q| + i];
  }

  /** A fresh extension of a duplicate-free list is duplicate-free. */
  lemma FreshExtensionNoDup<T>(q: seq<T>, r: seq<T>)
    requires FreshExtension(q, r) && NoDup(q)
    ensures NoDup(r)
  {
    forall i, j | 0 <= i < j < |r|
      ensures r[i] != r[j]
    {
      if j < |q| {
        assert r[i] == q[i] && r[j] == q[j];
      } else if i < |q| {
        assert r[i] == q[i];
      } else {
        assert r[i] == r[|q|..][i - |q|] && r[j] == r[|q|..][j - |q|];
      }
    }
  }
}

=== FILE: text.dfy ===
/** The pieces of Python's `str` behaviour that the scanner relies on. */
module Text {

  /** `str.lower` on one character, for the ASCII letters. */
  function LowerChar(c: char): char {
    if 'A' <= c <= 'Z' then (c as int + 32) as char else c
  }

  /** `str.upper` on one character, for the ASCII letters. */
  function UpperChar(c: char): char {
    if 'a' <= c <= 'z' then (c as int - 32) as char else c
  }

  predicate IsUpperLetter(c: char) {
    'A' <= c <= 'Z'
  }

  predicate IsLowerLetter(c: char) {
    'a' <= c <= 'z'
  }

  /** `str.lower()`, for the ASCII letters. */
  function Lower(s: string): (r: string)
    ensures |r| == |s|
  {
    seq(|s|, i requires 0 <= i < |s| => LowerChar(s[i]))
  }

  /** `str.upper()`, for the ASCII letters. */
  function Upper(s: string): (r: string)
    ensures |r| == |s|
  {
    seq(|s|, i requires 0 <= i < |s| => UpperChar(s[i]))
  }

  /** Lower-casing moves every capital 32 code points down the table to its
      small letter, keeps every other character, and leaves no capital. */
  lemma LowerSpec(s: string)
    ensures forall i :: 0 <= i < |s| && IsUpperLetter(s[i]) ==> Lower(s)[i] as int == s[i] as int + 32
    ensures forall i :: 0 <= i < |s| && !IsUpperLetter(s[i]) ==> Lower(s)[i] == s[i]
    ensures forall i :: 0 <= i < |s| ==> !IsUpperLetter(Lower(s)[i])
  {
  }

  /** Upper-casing moves every small letter 32 code points up the table to
      its capital, keeps every other character, and leaves no small letter. */
  lemma UpperSpec(s: string)
    ensures forall i :: 0 <= i < |s| && IsLowerLetter(s[i]) ==> Upper(s)[i] as int == s[i] as int - 32
    ensures forall i :: 0 <= i < |s| && !IsLowerLetter(s[i]) ==> Upper(s)[i] == s[i]
    ensures forall i :: 0 <= i < |s| ==> !IsLowerLetter(Upper(s)[i])
  {
  }

  /** A text without capitals is its own lower-case form. */
  lemma LowerOfLowerCase(s: string)
    requires forall i :: 0 <= i < |s| ==> !IsUpperLetter(s[i])
    ensures Lower(s) == s
  {
  }

  /** The characters for which Python's `str.isspace` holds. */
  predicate IsSpace(c: char) {
    || c == ' '
    || '\t' <= c <= '\r'
    || '\U{1C}' <= c <= '\U{1F}'
    || c == '\U{85}' || c == '\U{A0}' || c == '\U{1680}'
    || '\U{2000}' <= c <= '\U{200A}'
    || c == '\U{2028}' || c == '\U{2029}' || c == '\U{202F}'
    || c == '\U{205F}' || c == '\U{3000}'
  }

  /** `str.lstrip()`: drops the leading white space and nothing else. */
  function TrimStart(s: string): (r: string)
    ensures |r| <= |s| && r == s[|s| - |r|..]
    ensures forall k :: 0 <= k < |s| - |r| ==> IsSpace(s[k])
    ensures r == [] || !IsSpace(r[0])
  {
    if s != [] && IsSpace(s[0]) then
      var rest := TrimStart(s[1..]);
      assert s[1..][|s| - 1 - |rest|..] == s[|s| - |rest|..];
      assert forall k :: 1 <= k < |s| - |rest| ==> s[k] == s[1..][k - 1];
      rest
    else s
  }

  /** `str.rstrip()`: drops the trailing white space and nothing else. */
  function TrimEnd(s: string): (r: string)
    ensures |r| <= |s| && r == s[..|r|]
    ensures forall k :: |r| <= k < |s| ==> IsSpace(s[k])
    ensures r == [] || !IsSpace(r[|r| - 1])
  {
    if s != [] && IsSpace(s[|s| - 1]) then
      var rest := TrimEnd(s[..|s| - 1]);
      assert s[..|s| - 1][..|rest|] == s[..|rest|];
      assert forall k :: |rest| <= k < |s| - 1 ==> s[k] == s[..|s| - 1][k];
      rest
    else s
  }

  /** `r` is the slice of `s` from index `i` with only white space around it. */
  predicate SpaceBetween(s: string, r: string, i: int) {
    && 0 <= i <= |s| - |r| && r == s[i..i + |r|]
    && (forall k :: 0 <= k < i ==> IsSpace(s[k]))
    && (forall k :: i + |r| <= k < |s| ==> IsSpace(s[k]))
  }

  /** `str.strip()`: drops the white space at both ends, leaving a text
      that starts and ends with a non-space character. */
  function Strip(s: string): (r: string)
    ensures |r| <= |s|
    ensures r == [] || (!IsSpace(r[0]) && !IsSpace(r[|r| - 1]))
  {
    TrimEnd(TrimStart(s))
  }

  /** The stripped text is the slice of `s` with only white space around it. */
  lemma StripIsSlice(s: string)
    ensures exists i :: SpaceBetween(s, Strip(s), i)
  {
    var t := TrimStart(s);
    var r := TrimEnd(t);
    var i := |s| - |t|;
    SliceAround(s, t, r);
    assert SpaceBetween(s, Strip(s), i);
  }

  /** A right-trimmed suffix of a text after its leading white space sits
      between white space. */
  lemma SliceAround(s: string, t: string, r: string)
    requires |t| <= |s| && t == s[|s| - |t|..]
    requires forall k :: 0 <= k < |s| - |t| ==> IsSpace(s[k])
    requires |r| <= |t| && r == t[..|r|]
    requires forall k :: |r| <= k < |t| ==> IsSpace(t[k])
    ensures SpaceBetween(s, r, |s| - |t|)
  {
    var i := |s| - |t|;
    assert r == s[i..i + |r|];
    forall k | i + |r| <= k < |s|
      ensures IsSpace(s[k])
    {
      assert s[k] == t[k - i];
    }
  }

  /** Stripping twice is stripping once. */
  lemma StripIdempotent(s: string)
    ensures Strip(Strip(s)) == Strip(s)
  {
    var r := Strip(s);
    if r != [] {
      assert TrimStart(r) == r;
      assert TrimEnd(r) == r;
    }
  }

  /** `s.strip()` is empty exactly when `s` is all white space. */
  lemma StripEmptyIff(s: string)
    ensures Strip(s) == [] <==> forall k :: 0 <= k < |s| ==> IsSpace(s[k])
  {
  }

  function DigitChar(d: nat): char
    requires d < 10
  {
    "0123456789"[d]
  }

  /** `str(n)` for a natural number. */
  function NatToString(n: nat): (r: string)
    ensures r != []
    ensures forall k :: 0 <= k < |r| ==> '0' <= r[k] <= '9'
  {
    if n < 10 then [DigitChar(n)] else NatToString(n / 10) + [DigitChar(n % 10)]
  }
}

=== FILE: wrappers.dfy ===
/** Failure-carrying datatypes shared by the whole model. */
module Wrappers {

  /** Python's `Optional[...]`: a value or `None`. */
  datatype Option<+T> = None | Some(value: T)

  /** The result of a step whose failure the source reports as an exception:
      either its value, or the exception's message. */
  datatype Outcome<+T> = Ok(value: T) | Fail(reason: string)
}
